=== FILE: README.md ===
# dosepro core, modelled in Dafny

dosepro reads, writes and compares one-dimensional dose profiles from
radiotherapy QA instruments. This project models three pieces of it:

- **Cross-calibration** (`cross_calibrate`, module `CrossCalibrate`). The
  measured profile is aligned to a reference profile. Both are sampled on a
  grid over their overlap. The (measured, reference) pairs are sorted by the
  measured value. An affine map with a positive slope is fitted first. Then
  piecewise-linear maps with 2 to 9 segments are tried in turn. The search
  keeps the last fit that was monotonic. It stops at the first fit that is
  not monotonic, or when 60 seconds of clock time have passed before a fit.
- **SNC Profiler import and synthetic profiles** (`profile_from`, module
  `ProfileFrom`). This covers `lists` and `tuples`, the unit `pulse`, and the
  Profiler reader: the metadata "munge", the row scan for the calibration,
  data and dose-per-count rows, the dose product, and the split onto the
  57 transverse and 83 radial detectors.
- **SNC Profiler export** (`profile_to`, module `ProfileTo`). This covers the
  metadata defaults, the sampling of both profiles at the detector
  positions, the integer counts, and the 64 lines of the file.

The module `SncRoundTrip` joins the writer and the reader. Exporting two
profiles and importing the file gives back, on either axis, the detector
positions. The value at each position is the sampled value cut to whole
counts (1000 per unit) times the dose per count written in the header.

Supporting modules: `Results` (`Option`, `Result`), `PyText` (the Python
string operations the code relies on: `split()`, `'\t'.join`, slicing,
`in`, `replace`, `split(sep, 1)`, `str(int)` and `float`), and `Profiles`
(the profile value, the Profile class operations as an oracle, and numpy's
`arange`, `min` and `max`).

Modelling choices:

- Positions are whole millimetres. So -11.2 cm is -112 and the detector
  pitch is 4. Doses are `real`; counts are `int`.
- The Profile class (`get_y`, `get_increment`, `align_to`, `interp`) is not
  part of this model. Its methods are the fields of `Profiles.ProfileOps`,
  and nothing is assumed about them.
- `numpy.polyfit` and `pwlf` are the oracle `CrossCalibrate.Fitter`.
- `time.clock()` is an input `clock: nat -> real`. Reading 0 is the start.
  Reading `n - 1` is the one taken before the fit with `n` segments.
- The exporter's regular expressions are the oracle `ProfileTo.Extractors`.
  A pattern that does not match gives `NoMatch`. A missing key gives
  `MissingField`.
- Files are sequences of lines. The reader takes the lines of the file, and
  the writer returns the lines it would write.
- Each Python exception is an error value, raised in the order the source
  reaches it. The constructors stand for these exceptions:
  - `ProfileFrom.ImportError`: `IndexError`, `TypeError`, `ValueError`,
    `ZeroDivisionError` and `NameError` are those exceptions.
    `BroadcastError` is the `ValueError` numpy raises for operands of
    incompatible lengths.
  - `ProfileTo.ExportError`: `MissingField(key)` is the `TypeError` from
    `re.search` on `None` (profile_to.py:79, 91, 104, 107). For the time
    stamp it is the `AttributeError` from `None.split()` (profile_to.py:119).
    `NoMatch(key)` is the `AttributeError` from `.groups()` or `.group()` on
    `None`. `UnpackError` is the `ValueError` from unpacking a word count
    other than two. `NoProfile(name)` is the `AttributeError` from
    `None.interp` when a profile argument keeps its default
    (profile_to.py:147-148).
  - `CrossCalibrate.CalError`: `EmptyProfile` is the `ValueError` of `min`
    or `max` on nothing. `ZeroStep` is the `ZeroDivisionError` of `arange`.
    `NoSamples` is the `TypeError` of `polyfit` on empty vectors.
    `NonPositiveSlope` is the `AssertionError` from `assert m > 0`.
- The search result also reports the segment counts it fitted and why it
  stopped (`CrossCalibrate.Search`). The source returns only the function.
  The extra fields are there so the properties can be stated.

How the code fails and stops, as modelled:

- A non-positive affine slope fails `assert m > 0` in `linear`
  (cross_calibrate.py:101). Here that is `CalError.NonPositiveSlope`.
- A non-monotonic piecewise fit ends the loop, and the last monotonic fit is
  returned (cross_calibrate.py:119-123). That is the affine fit only when the
  2-segment fit fails (`CrossCalibrate.StopsAtFirstNonMonotonic`).
- The 60-second time-out only ends the loop (cross_calibrate.py:117-118).
  The model records it in `Search.stop`.
- `pulse` compares `abs(x)` with `centre + width/2`, so the pulse is not
  placed at `centre` (see Findings).
- `snc_profiler` opens its `file_name` argument, whose default is `None`, and
  not the name it computes. Called without a file name it fails after
  building the lines (see Findings). `ProfileTo.SncProfiler` returns the
  lines and leaves the file out.

## Model

| member | source | states |
|---|---|---|
| PyText.WordsOfTabRow | profile_from.py:172-176 | `split()` of a tab-joined row whose fields hold no whitespace gives exactly the non-empty fields, in order |
| PyText.Words | profile_from.py:172-176 | `split()` gives non-empty words without whitespace; an empty text has no words and a non-empty text without whitespace is one word |
| PyText.WordsAtSpace | profile_from.py:172-176 | splitting at any whitespace character splits the words: the words of the text are those before it followed by those after it, which with the two cases above fixes `split()` on every text |
| PyText.WordsTrailingSpace | profile_from.py:172-176 | whitespace at the end of the text adds no word |
| PyText.WordsOfNonSpaceStart | profile_from.py:172-176 | a text starting with a non-whitespace character has at least one word |
| PyText.IntToStringParses | profile_to.py:159 | an integer written with `str` is read back unchanged by `float` |
| PyText.IntToString | profile_to.py:159 | `str` of an integer is non-empty, has no whitespace and no point, is digits without a leading zero, with a leading minus exactly for negatives |
| PyText.ParseReal | profile_from.py:172-176 | `float` accepts only a non-empty token without whitespace, rejects a doubled sign, and reads a run of digits as the number it denotes |
| PyText.SignedParse | profile_from.py:172-176 | a `-` in front of an unsigned number negates its value; a `+` or no sign keeps it |
| PyText.UnsignedPointed | profile_from.py:172-176 | `whole.frac` reads as the whole digits' value plus the fraction digits' value over 10 to the number of fraction digits |
| PyText.ParsePointed | profile_from.py:172-176 | an optionally signed `whole.frac` token (`-0.5`, `.5`, `0.001`) reads as that whole-plus-fraction value, negated after a minus |
| PyText.ParseWhole | profile_from.py:172-176 | an optionally signed run of digits reads as the number it denotes, negated after a minus |
| PyText.UnsignedShape | profile_from.py:172-176 | an unsigned number that reads is non-empty, has no whitespace and no sign |
| PyText.DigitsOnlyParse | profile_from.py:172-176 | a run of digits holds no point and reads as the number it denotes |
| PyText.ParseAllSucceeds | profile_from.py:172-174 | `astype(float)` of tokens that each parse gives the list of their values |
| PyText.SplitAtFirst | profile_from.py:165 | `split(c, 1)` on a text containing c gives the part before the first c and everything after it; the first part holds no c |
| PyText.ReplaceDeletesChar | profile_from.py:158 | replacing a one-character pattern by nothing is deleting that character: no copy is left and every other character present before is still present |
| PyText.Replace | profile_from.py:158-163 | `replace` leaves a text without the pattern unchanged |
| PyText.ReplaceFirst | profile_from.py:158-163 | at the first occurrence of the pattern, `replace` keeps the text before it, puts the replacement in its place and goes on after it; with the case above this fixes `replace` on every text |
| PyText.ReplaceSkipPrefix | profile_from.py:158-163 | where no occurrence of the pattern starts among the first k positions, `replace` keeps those k characters and replaces the rest |
| PyText.NoMatchShift | profile_from.py:158-163 | no occurrence among the first k positions means none at the start and none among the first k - 1 positions of the rest |
| PyText.ReplaceAvoids | profile_from.py:158-163 | `replace` brings in no character absent from both the text and the replacement |
| PyText.ReplacePrefix | profile_from.py:158-163 | when the replacement starts with a character the prefix lacks, a prefix of the replaced text is a prefix of the original |
| PyText.BreakStartsLines | profile_from.py:161-163 | replacing a line-break-free, border-free label L by a break and L leaves every L at the start of a line |
| PyText.LinesAfterBreak | profile_from.py:161-163 | a line break and a border-free label in front of a text whose labels start lines keep every label at a line start |
| PyText.LinesAfterChar | profile_from.py:161-163 | one character that does not begin a label, in front of a text whose labels start lines, keeps every label at a line start |
| PyText.SpaceBreakLeavesNone | profile_from.py:159-160 | after replacing " L" by a break and L, no " L" is left |
| PyText.BreakBefore | profile_from.py:161-163 | the label break the munge applies: afterwards every copy of the label starts a line |
| PyText.BreakAtSpace | profile_from.py:159-160 | the space break the munge applies: afterwards no space precedes the label |
| PyText.UpTo | profile_from.py:164 | `split(pat)[0]`: a prefix holding no whole copy of the pattern, followed by the pattern wherever it stops short of the text |
| PyText.SplitOn | profile_from.py:164 | `split(c)` gives at least one part, no part holds c, and joining the parts with c gives the text back |
| Profiles.Arange | profile_to.py:144-145 | the i-th `arange` point is `start + i*step`; every point lies short of `stop`; the next point would reach it |
| Profiles.ArangeSpacing | cross_calibrate.py:85-88 | consecutive `arange` points are exactly one step apart |
| Profiles.SeqMin | cross_calibrate.py:86 | `min` returns an element that no element is below |
| Profiles.SeqMax | cross_calibrate.py:87 | `max` returns an element that no element is above |
| ProfileFrom.Zip | profile_from.py:180 | `zip` pairs elements index by index, up to the shorter length |
| ProfileFrom.Unzip | profile_from.py:101-102 | `zip(*pairs)` gives the first components and the second components, in input order, both as long as the input |
| ProfileFrom.Lists | profile_from.py:82 | `lists` keeps exactly the positions, values and metadata it is given |
| ProfileFrom.ZipUnzip | profile_from.py:101-102 | zipping the two unzipped lists gives the input pairs back |
| ProfileFrom.UnzipZip | profile_from.py:101-102 | unzipping two zipped lists of equal length gives both lists back |
| ProfileFrom.Tuples | profile_from.py:101-104 | `tuples` fails with IndexError exactly on an empty list; otherwise x and y are the components of the pairs, the metadata is kept, and zipping x and y gives the pairs back |
| ProfileFrom.TuplesAgreesWithLists | profile_from.py:82-104 | `tuples(zip(x, y))` builds the same profile as `lists(x, y)` |
| ProfileFrom.PulseValue | profile_from.py:127-132 | a pulse sample is 0 exactly when abs(x) is beyond centre + width/2, 1 exactly when it is inside, and 0.5 exactly on the boundary |
| ProfileFrom.Pulse | profile_from.py:124-133 | the pulse fails, with numpy's ZeroDivisionError, exactly on a zero increment; otherwise x is the `arange` grid, y has one value per x, each y is `PulseValue` of its x, each in {0, 0.5, 1}, and a value is 1 exactly when abs(x) is inside the half-width bound |
| ProfileFrom.PulseMirrorsAboutZero | profile_from.py:127 | samples at x and -x have the same value, whatever the centre |
| ProfileFrom.PulseIgnoresCentre | profile_from.py:127-132 | a pulse centred at 100 mm, 40 mm wide, is 1 at -100 mm as written, where the pulse centred at 100 mm is 0 |
| ProfileFrom.CentredPulseValue | profile_from.py:127-132 | corrected sample: 1 exactly strictly inside (centre - width/2, centre + width/2), 0 exactly outside the closed interval, else 0.5 |
| ProfileFrom.CentredPulse | profile_from.py:124-133 | corrected pulse: same grid and error case as `pulse`; each y is `CentredPulseValue` of its x, so 1 exactly inside the interval around the centre |
| ProfileFrom.CentredPulseSymmetric | profile_from.py:127-132 | the corrected pulse is symmetric about its centre |
| ProfileFrom.MungeText | profile_from.py:157-164 | the munged text is a prefix of the reflowed text and contains no "TYPE"; where it stops short of the reflowed text, a "TYPE" follows |
| ProfileFrom.ReflowText | profile_from.py:157-163 | the reflowed text holds no tab, and every "Collimator Angle:" in it starts a line |
| ProfileFrom.ReflowDropsTabs | profile_from.py:157-158 | after the tab deletion no tab is left and the text is the joined lines with their tabs removed |
| ProfileFrom.Entries | profile_from.py:165-166 | every entry is a line with a colon, split at its first colon, with a non-empty value; every such line gives an entry |
| ProfileFrom.EntriesAppend | profile_from.py:165-166 | the entries of two blocks of lines are the entries of the first followed by those of the second |
| ProfileFrom.ToDict | profile_from.py:167 | `dict` of the entries has exactly their keys, each mapped to the value of its last entry |
| ProfileFrom.ToDictStep | profile_from.py:167 | adding one more entry keeps the key set and last-wins values correct |
| ProfileFrom.MungeMeta | profile_from.py:156-167 | the metadata keys are exactly the keys of the entries of the munged lines; each key holds the value of its last entry; every value is non-empty and no key holds a colon |
| ProfileFrom.Slice | profile_from.py:172-174 | Python's clipped list slice: its length is the stop (cut to the list length) minus the start when that is positive, otherwise 0; element i is the list's element start + i; within bounds it is the Dafny slice |
| ProfileFrom.ReadRow | profile_from.py:170-176 | a calibration row sets the factors to `float` of its words after the first, a data row sets the counts to `float` of its words 5 to 144, a dose-per-count row has at least three words and sets the dose per count to `float` of its last word; a token `float` rejects is ValueError; any other row changes nothing, and each row kind changes only its own reading |
| ProfileFrom.TaggedRowWords | profile_from.py:175-176 | a dose-per-count row splits into at least three words, so `split()[-1]` always exists |
| ProfileFrom.Classify | profile_from.py:171-175 | a row is a calibration row exactly when it starts with "Calibration" and has no "File", a data row exactly when it starts with "Data:", a dose-per-count row exactly when it starts with "Dose Per Count:" |
| ProfileFrom.TagsExclusive | profile_from.py:171-175 | no row starts with two of the three tags |
| ProfileFrom.ReadRows | profile_from.py:170-176 | a scan without a row of some kind leaves that reading as it was; a failed scan met a calibration, data or dose-per-count row |
| ProfileFrom.ReadRowsAppend | profile_from.py:170-176 | scanning two blocks of rows is scanning the first, then the second from where the first left off |
| ProfileFrom.LastDataRowWins | profile_from.py:173-174 | after a successful scan the counts are those of the last data row |
| ProfileFrom.DataRowLast | profile_from.py:173-174 | rows ending in a data row that scan without error leave that row's counts |
| ProfileFrom.ReadOtherRows | profile_from.py:170-176 | rows that none of the three tests picks leave the readings unchanged |
| ProfileFrom.Broadcast | profile_from.py:177 | numpy's elementwise product succeeds exactly on equal lengths or a length of 1; on equal lengths it multiplies index by index, and a length-1 operand multiplies every element of the other, on either side |
| ProfileFrom.Dose | profile_from.py:177 | a missing counts, dose-per-count or calibration row is a NameError, in that order; the product succeeds exactly when all three were read and the counts and factors have equal lengths or one of them has length 1; dose[i] = counts[i] * dose_per_count * calibs[i], with a length-1 side standing for every index |
| ProfileFrom.TvsPositions | profile_from.py:179 | 57 transverse positions, -112 mm + 4 mm * i |
| ProfileFrom.RadPositions | profile_from.py:181 | 83 radial positions, -164 mm + 4 mm * i |
| ProfileFrom.AxisPairs | profile_from.py:179-182 | transverse pairs take dose[0..57) and radial pairs take dose[57..140), each on its own detector positions, cut to the shorter length |
| ProfileFrom.AxisProfile | profile_from.py:179-189 | an axis other than 'tvs' or 'rad' is a TypeError; 'tvs' fails exactly on an empty dose and 'rad' exactly on a dose of at most 57 values; a profile read keeps the metadata, and element i is at -112 mm + 4 mm * i with dose[i] ('tvs') or at -164 mm + 4 mm * i with dose[57 + i] ('rad') |
| ProfileFrom.SncProfiler | profile_from.py:135-189 | an axis other than 'tvs' or 'rad' is a TypeError; a failed row scan or dose product is that error; otherwise the profile is `AxisProfile` of the dose from the scanned readings, with the munged metadata |
| ProfileTo.OrDefault | profile_to.py:80-90 | `meta.get(key) or default` is the value when present and non-empty, else the default |
| ProfileTo.Extract | profile_to.py:79 | a regular-expression field fails on a missing key first, then on a value the pattern does not match |
| ProfileTo.TimeStamp | profile_to.py:119 | a missing TimeStamp fails; a blank one gives the default date and time; two tokens give the date and time; any other word count is the unpacking ValueError (`UnpackError`) |
| ProfileTo.ResolveSettings | profile_to.py:78-123 | the required fields fail in source order: Collimator (missing or unmatched), then Buildup, Rate, Wedge and TimeStamp, each error being that field's own; it succeeds exactly when all five resolve, with the header filled from their values; every failure names one of those five keys |
| ProfileTo.Fill | profile_to.py:80-123 | the extracted jaws, wedge and time stamp are carried over; depth, rate, date, time, collector model, dose per count and detector spacing are non-empty; a present, non-empty Dose Per Count and a present Description are used as they are |
| ProfileTo.ResolvedFields | profile_to.py:79-119 | the resolved jaws, calibration time stamp, dose per count, collector model, date and detector spacing come from the metadata or their defaults |
| ProfileTo.Truncate | profile_to.py:159 | `int()` truncates toward zero: below the value for positives, above it for negatives, within 1 |
| ProfileTo.Count | profile_to.py:159 | the count is `int(1000*v)`: within one count of 1000*v, on the side of zero |
| ProfileTo.CountTexts | profile_to.py:159 | one `str(int(1000*v))` per sampled value, in order |
| ProfileTo.DataFields | profile_to.py:158-160 | the data row is "Data:", four zeros, the counts in order, then four zeros |
| ProfileTo.XLabels | profile_to.py:247 | X1 to X57 |
| ProfileTo.YLabels | profile_to.py:248 | Y1 to Y83 |
| ProfileTo.TypeFields | profile_to.py:242-249 | the label row has 149 fields: TYPE; UPDATE#, TIMETIC, PULSES, ERRORS; X1 to X57; Y1 to Y83; Z0 to Z3 |
| ProfileTo.BiasFields | profile_to.py:250-251 | the bias row has 149 fields starting with BIAS1 |
| ProfileTo.CalibrationFields | profile_to.py:252-253 | the calibration row has 145 fields |
| ProfileTo.SetupLines | profile_to.py:179-223 | the header down to "Dose Calibration" is 42 lines; `SncRoundTrip.SetupSkipped` states what the reader makes of them |
| ProfileTo.TrailerLines | profile_to.py:225-241 | the header after the dose per count is 17 lines; `SncRoundTrip.TrailerSkipped` states what the reader makes of them |
| ProfileTo.ProfilerLines | profile_to.py:179-254 | the file is 64 lines and its last line is the tab-joined data row |
| ProfileTo.SncProfiler | profile_to.py:57-262 | a metadata error comes first; then a transverse, then a radial profile left at `None` fails; export succeeds exactly when the metadata resolves and both profiles are given, and then it is 64 lines, the last being the counts of both profiles sampled at the detector positions, transverse first |
| ProfileTo.OpenTarget | profile_to.py:259 | as written, `open` receives the `file_name` argument itself, so the default `None` cannot be opened |
| ProfileTo.TargetName | profile_to.py:78 | the computed name is never empty: the given file name when non-empty, else a non-empty Filename entry, else "NONE" |
| ProfileTo.OmittedFileNameFails | profile_to.py:57-78 | with the default file name the file cannot be opened, although a non-empty name was computed |
| ProfileTo.TargetNameAgrees | profile_to.py:78 | where the code as written opens a non-empty name, the computed name is that same name |
| ProfileTo.TvsPositionsAgree | profile_to.py:144 | the writer's transverse sample positions are exactly the reader's 57 detector positions |
| ProfileTo.RadPositionsAgree | profile_to.py:145 | the writer's radial sample positions are exactly the reader's 83 detector positions |
| ProfileTo.TypeRowMatchesDataRow | profile_to.py:242-254 | the label, bias and data rows all have 149 fields |
| ProfileTo.DataRowReadsBack | profile_to.py:158-160 | `split()` of the data row gives its fields; fields 5 to 144 are the 140 count texts, which `float` reads back as the counts `int(1000*v)` |
| SncRoundTrip.CalibrationFileLine | profile_to.py:184 | the reader skips the "Calibration File:" line because it contains "File" |
| SncRoundTrip.SetupSkipped | profile_to.py:179-223 | the reader picks none of the 42 setup lines |
| SncRoundTrip.TrailerSkipped | profile_to.py:225-241 | the reader picks none of the 17 lines after the dose per count |
| SncRoundTrip.LabelRowsSkipped | profile_to.py:242-251 | the reader picks neither the label row nor the bias row |
| SncRoundTrip.CalibrationRowReads | profile_to.py:252-253 | the reader takes 140 factors of 1.0 from the calibration row |
| SncRoundTrip.DataRowReads | profile_to.py:158-160 | the reader takes the 140 truncated counts from the data row |
| SncRoundTrip.DosePerCountReads | profile_to.py:224 | the reader takes the written dose per count when it is one token that `float` reads |
| SncRoundTrip.ProfilerLinesRead | profile_to.py:179-254 | scanning the 64 written lines ends with unit factors, the counts and the dose per count |
| SncRoundTrip.ImportOfReadings | profile_from.py:177-189 | from those readings each axis is its detector positions with counts times dose per count, transverse counts first |
| SncRoundTrip.ExportThenImport | profile_to.py:144-160 | exporting and re-importing gives each axis's detector positions with the sampled values truncated to counts and scaled by the dose per count |
| SncRoundTrip.DefaultDosePerCount | profile_to.py:117 | the default dose per count "0.001" is one token that reads as 0.001 |
| SncRoundTrip.DefaultQuantisation | profile_to.py:159 | at 0.001 per count a value comes back within 0.001 of itself, on the side of zero |
| CrossCalibrate.OverlapGrid | cross_calibrate.py:85-88 | empty positions and a zero step are errors; points are one step apart; with a positive step every point is at least the larger minimum and below the smaller maximum, starting at that minimum when the overlap is non-empty, and one step past the last point reaches the smaller maximum (mirrored for a negative step), so the grid covers the whole overlap |
| CrossCalibrate.ArangeReach | cross_calibrate.py:85-88 | one step past the last `arange` point reaches the stop |
| CrossCalibrate.ArangeBounds | cross_calibrate.py:85-88 | `arange` points lie from the start up to but excluding the stop, mirrored for a negative step |
| CrossCalibrate.Samples | cross_calibrate.py:90-91 | one (measured, reference) value pair per grid position |
| CrossCalibrate.Insert | cross_calibrate.py:93-94 | inserting into sorted pairs keeps them sorted and adds exactly that pair |
| CrossCalibrate.SortPairs | cross_calibrate.py:93-94 | the pairs come out in non-decreasing measured order, as a permutation of the input with each pair kept whole |
| CrossCalibrate.Diff | cross_calibrate.py:97 | `diff` has one element fewer (none for under two values) and holds the consecutive differences |
| CrossCalibrate.ShortIsMonotonic | cross_calibrate.py:96-97 | fewer than two predictions always pass the monotonic check |
| CrossCalibrate.IsMonotonic | cross_calibrate.py:96-97 | the `diff >= 0` check passes exactly when the predictions never decrease between any two positions |
| CrossCalibrate.NoDropIffOrdered | cross_calibrate.py:96-97 | no negative consecutive difference exactly when the list is non-decreasing |
| CrossCalibrate.StepsUp | cross_calibrate.py:96-97 | predictions with no negative consecutive difference never decrease between any two positions |
| CrossCalibrate.AffinePredictions | cross_calibrate.py:102-103 | the affine map predicts slope * x + intercept at each sample |
| CrossCalibrate.AffineIsMonotonic | cross_calibrate.py:99-104 | on samples sorted by measured value, a positive-slope affine fit passes the monotonic check |
| CrossCalibrate.Linear | cross_calibrate.py:99-104 | the affine fit succeeds exactly when the fitted slope is positive, and then is that line |
| CrossCalibrate.PieceLinear | cross_calibrate.py:106-112 | a piecewise fit is returned exactly when its predictions pass the monotonic check |
| CrossCalibrate.BestBefore | cross_calibrate.py:115-123 | before count 2 the best curve is the affine fallback; later it is the piecewise fit one count lower |
| CrossCalibrate.Range | cross_calibrate.py:116 | `range(lo, hi)` |
| CrossCalibrate.SearchTriesInOrder | cross_calibrate.py:116-121 | the counts fitted run up by one without a gap, up to the stopping count, and include it only when that fit was non-monotonic |
| CrossCalibrate.SearchPassesBeforeStop | cross_calibrate.py:116-123 | every count before the stopping one was within budget and fitted monotonically |
| CrossCalibrate.SearchStopsWithBest | cross_calibrate.py:115-123 | the curve is the best one before the stopping count; an over-budget stop was past 60 seconds; a non-monotonic stop was within budget and failed the check |
| CrossCalibrate.ProgressiveSearch | cross_calibrate.py:114-129 | the result is the affine fallback or a monotonic piecewise fit with 2 to 9 segments; at most 8 counts are fitted, in the order 2, 3, ... |
| CrossCalibrate.SearchFrom | cross_calibrate.py:116-123 | a search from count k fits at most 10 - k counts |
| CrossCalibrate.StopsAtFirstNonMonotonic | cross_calibrate.py:119-123 | a non-monotonic fit is the last one tried, every earlier one was monotonic, and the previous fit (or the fallback after count 2) is returned |
| CrossCalibrate.StopsOverBudget | cross_calibrate.py:117-118 | an over-budget stop starts no fit for that count, the clock was past 60 seconds, and the best curve so far is kept |
| CrossCalibrate.ExhaustedKeepsLastFit | cross_calibrate.py:116-123 | every fit was started within budget; when all of 2 to 9 pass, the 9-segment fit is returned |
| CrossCalibrate.SearchLoop | cross_calibrate.py:114-129 | the `for`/`break` loop returns the same search as `ProgressiveSearch` |
| CrossCalibrate.CrossCalibrate | cross_calibrate.py:83-129 | grid errors come first, then an empty grid; with samples, the result fails exactly when the affine fit of the sorted samples has a non-positive slope; on success the pairs are a sorted permutation of the samples, the fallback is that affine fit with a positive slope, the search is the progressive search over piecewise fits of those samples from that fallback, and the curve is the fallback or a monotonic fit |
| CrossCalibrate.FitSorted | cross_calibrate.py:99-129 | on sorted samples, the fit fails exactly when the affine fit does; otherwise the fallback is that affine fit and the search is the progressive search from it |

## Left out

- File reading and writing (`open`, `readlines`, `outfile.write`): the
  reader takes the file's lines and the writer returns its lines.
  `SncRoundTrip` assumes the list the writer returns is the list of lines
  the reader gets back. That holds when no metadata value holds a line
  break.
- The Profile class (interpolation, increments, alignment, edges) is not
  part of this model; its methods are opaque operations.
- `narrow_png`, which `cross_calibrate` uses to read the measured image, and
  `snc_profiler`'s file read of the reference: the model takes both
  profiles as inputs.
- `pwlf` and `numpy.polyfit`: their fits are an oracle, and their own
  failures are not modelled.
- Floating point: positions are whole millimetres and values are exact
  reals. numpy's float `arange` endpoints and rounding in `1000*v` are not
  modelled.
- `float()` reads only optionally signed decimal tokens (`12`, `-0.5`, `.5`).
  Exponents, `inf` and `nan` are read as errors.
- numpy's default `argsort` does not fix the order of equal measured values.
  `CrossCalibrate.SortPairs` promises only sortedness and a permutation.
- `time.clock()` is an input; its removal in Python 3.8 is not modelled.
- The exporter's regular expressions are an oracle. The computed `version`
  is not used by the code (the file says `7`), so it is not modelled. The
  computed `filename` is not used either; it is modelled only to state the
  file-name finding below.
- ProfileTo.OpenTarget: a file name that is given but cannot be opened
  (`''`, a missing directory) is an I/O failure and is not modelled.
- The GUI (`prof_gui.py`) and the other parsers (`raystation_line`,
  `rfa_ascii`, `pinnacle_ascii`).
- SncRoundTrip.ExportThenImport: holds only when each profile gives one
  sample per detector and the dose per count is a single token that `float`
  reads. Other cases are not covered.
- ProfileTo.SetupLines: its contract gives only the line count. What the
  lines say is stated through the reader, in `SncRoundTrip.SetupSkipped`.
- ProfileTo.TrailerLines: its contract gives only the line count. What the
  lines say is stated through the reader, in `SncRoundTrip.TrailerSkipped`.
- ProfileTo.CalibrationFields: its contract gives only the field count. What
  the fields hold is stated through the reader, in
  `SncRoundTrip.CalibrationRowReads`.
- ProfileTo.BiasFields: only the field count and the first field are stated.
- ProfileFrom.ReflowText: only the last break is stated on the final text.
  That the later breaks keep "Energy:" and "Dose:" at line starts is not
  proved.
- PyText.UpTo: it does not state that no copy of the pattern straddles the
  end of the prefix, so "the text before the first occurrence" is promised
  only for patterns that cannot overlap themselves.
- CrossCalibrate.SearchFrom: its own contract bounds only the number of
  fits. The order, the stop and the curve are stated by
  `CrossCalibrate.SearchTriesInOrder`, `CrossCalibrate.SearchPassesBeforeStop`
  and `CrossCalibrate.SearchStopsWithBest`.
- CrossCalibrate.InBudget has no row of its own. What the budget test
  means is stated by `CrossCalibrate.StopsOverBudget` and
  `CrossCalibrate.SearchStopsWithBest`.

## Findings

| source | as written | input that shows it | evidently intended | confidence | as-written member | corrected member |
|---|---|---|---|---|---|---|
| profile_from.py:127-132 | the pulse compares abs(x) with centre + width/2, so the centre widens the pulse and does not move it | centre 100 mm, width 40 mm: the sample at x = -100 mm is 1, although -100 is 200 mm from the centre | a pulse of the given width around the centre: 1 when abs(x - centre) < width/2 | medium; not executed | ProfileFrom.PulseIgnoresCentre | ProfileFrom.CentredPulse |
| profile_to.py:57-78 | `file_name` defaults to `None` and `open(file_name, 'w')` at line 259 receives it unchanged; the `filename` computed at line 78 is never used | `snc_profiler(tvs, rad, meta=meta)` with the default file name: `open(None, 'w')` raises TypeError after the lines are built | open the computed name: the given file name, else the Filename entry, else "NONE" | medium; not executed | ProfileTo.OmittedFileNameFails | ProfileTo.TargetName |

=== FILE: cross_calibrate.dfy ===
/**
 * Cross-calibration of a measured profile against a reference: sample both
 * over their common range, sort the (measured, reference) pairs by the
 * measured value, fit an affine map, then try piecewise-linear maps with more
 * and more segments while they stay monotonic and time allows.
 *
 * The curve fitting libraries (`numpy.polyfit`, `pwlf`) are an oracle, the
 * clock is an input, and the Profile class operations come from `ProfileOps`.
 */
module CrossCalibrate {
  import opened Results
  import opened Profiles
  import opened ProfileFrom

  /** A fitted map from measured to reference values. */
  datatype Curve =
    | Affine(slope: real, intercept: real)
      /** A `pwlf` fit, known by its segment count and its predictions at the sorted samples. */
    | Piecewise(pieces: nat, predictions: seq<real>)

  /**
   * The fitting libraries: `numpy.polyfit(x, y, 1)` returning (slope, intercept),
   * and `pwlf.PiecewiseLinFit(x, y).fit(n)` followed by `predict(x)`.
   */
  datatype Fitter = Fitter(
    polyfit: (seq<real>, seq<real>) -> (real, real),
    pieceFit: (seq<real>, seq<real>, nat) -> seq<real>)

  /** Why the segment-count search ended. */
  datatype Stop =
    | Exhausted                 // all of 2..9 fitted monotonically
    | OverBudget(pieces: nat)   // more than 60 seconds had passed before fitting `pieces`
    | NonMonotonic(pieces: nat) // the fit with `pieces` segments was not monotonic

  /** The outcome of the search: the curve returned and the segment counts fitted, in order. */
  datatype Search = Search(curve: Curve, tried: seq<nat>, stop: Stop)

  /** The sorted sample pairs, the affine fallback fitted to them and the search run on them. */
  datatype Calibration = Calibration(pairs: seq<(real, real)>, fallback: Curve, search: Search)

  datatype CalError =
    | EmptyProfile      // `min`/`max` of an empty position list (ValueError)
    | ZeroStep          // `arange` with a zero increment (ZeroDivisionError)
    | NoSamples         // `polyfit` on empty vectors (TypeError)
    | NonPositiveSlope  // `assert m > 0` in `linear` (AssertionError)

  /** The most segments tried; `range(2, 10)` stops before 10. */
  const MaxPieces: nat := 9

  // ---------------------------------------------------------------------
  // Overlap grid
  // ---------------------------------------------------------------------

  function Max(a: int, b: int): int { if a >= b then a else b }
  function Min(a: int, b: int): int { if a <= b then a else b }

  /**
   * The sampling grid over the overlap of the two profiles: from the larger
   * of the two first positions, up to but excluding the smaller of the two
   * last positions, in steps of the larger increment.
   */
  function OverlapGrid(reference: Profile, measured: Profile, ops: ProfileOps): (r: Result<seq<int>, CalError>)
    ensures (|reference.x| == 0 || |measured.x| == 0) <==> r == Err(EmptyProfile)
    ensures r == Err(ZeroStep) <==>
      |reference.x| > 0 && |measured.x| > 0 && Max(ops.increment(reference), ops.increment(measured)) == 0
    ensures r.Ok? ==>
      var lo := Max(SeqMin(measured.x), SeqMin(reference.x));
      var hi := Min(SeqMax(measured.x), SeqMax(reference.x));
      var step := Max(ops.increment(reference), ops.increment(measured));
      && (forall i :: 0 <= i < |r.value| - 1 ==> r.value[i + 1] - r.value[i] == step)
      && (step > 0 ==> forall i :: 0 <= i < |r.value| ==> lo <= r.value[i] < hi)
      && (step < 0 ==> forall i :: 0 <= i < |r.value| ==> hi < r.value[i] <= lo)
      && (step > 0 && lo < hi ==> |r.value| > 0 && r.value[0] == lo)
      && (step > 0 && |r.value| > 0 ==> r.value[|r.value| - 1] + step >= hi)
      && (step < 0 && |r.value| > 0 ==> r.value[|r.value| - 1] + step <= hi)
  {
    if |reference.x| == 0 || |measured.x| == 0 then Err(EmptyProfile)
    else
      var step := Max(ops.increment(reference), ops.increment(measured));
      if step == 0 then Err(ZeroStep)
      else
        var lo := Max(SeqMin(measured.x), SeqMin(reference.x));
        var hi := Min(SeqMax(measured.x), SeqMax(reference.x));
        ArangeSpacing(lo, hi, step);
        ArangeBounds(lo, hi, step);
        ArangeReach(lo, hi, step);
        Ok(Arange(lo, hi, step))
  }

  /** `arange` runs as far as it can: one more step from its last point reaches the stop. */
  lemma ArangeReach(start: int, stop: int, step: int)
    requires step != 0
    ensures var r := Arange(start, stop, step);
      && (step > 0 && |r| > 0 ==> r[|r| - 1] + step >= stop)
      && (step < 0 && |r| > 0 ==> r[|r| - 1] + step <= stop)
  {
    var r := Arange(start, stop, step);
    if |r| > 0 {
      assert r[|r| - 1] + step == start + |r| * step by {
        assert r[|r| - 1] == start + (|r| - 1) * step;
        StepShift(|r|, step);
      }
    }
  }

  /** `arange` points lie between start and stop: at or past the start, short of the stop. */
  lemma ArangeBounds(start: int, stop: int, step: int)
    requires step != 0
    ensures var r := Arange(start, stop, step);
      && (step > 0 ==> forall i :: 0 <= i < |r| ==> start <= r[i] < stop)
      && (step < 0 ==> forall i :: 0 <= i < |r| ==> stop < r[i] <= start)
      && (step > 0 && start < stop ==> |r| > 0 && r[0] == start)
  {
    var r := Arange(start, stop, step);
    forall i | 0 <= i < |r|
      ensures step > 0 ==> start <= r[i]
      ensures step < 0 ==> r[i] <= start
    {
      assert r[i] == start + i * step;
      if step > 0 {
        assert i * step >= 0;
      } else {
        assert i * step <= 0;
      }
    }
  }

  // ---------------------------------------------------------------------
  // Sorting the sample pairs by measured value
  // ---------------------------------------------------------------------

  /** The pairs are in non-decreasing order of their first (measured) value. */
  predicate SortedByMeasured(ps: seq<(real, real)>)
  {
    forall i, j :: 0 <= i < j < |ps| ==> ps[i].0 <= ps[j].0
  }

  /** Insert one pair into pairs already sorted by measured value. */
  function Insert(p: (real, real), ps: seq<(real, real)>): (r: seq<(real, real)>)
    requires SortedByMeasured(ps)
    ensures SortedByMeasured(r)
    ensures multiset(r) == multiset(ps) + multiset{p}
    ensures |r| == |ps| + 1 && (r[0] == p || (|ps| > 0 && r[0] == ps[0]))
  {
    if |ps| == 0 || p.0 <= ps[0].0 then [p] + ps
    else
      var rest := Insert(p, ps[1..]);
      assert ps == [ps[0]] + ps[1..];
      [ps[0]] + rest
  }

  /**
   * `x, y = x[argsort(x)], y[argsort(x)]`: the pairs reordered by measured
   * value, each measured value kept with its reference value. numpy's default
   * sort does not fix the order of equal measured values, so neither does this.
   */
  function SortPairs(ps: seq<(real, real)>): (r: seq<(real, real)>)
    ensures SortedByMeasured(r)
    ensures multiset(r) == multiset(ps)
    ensures |r| == |ps|
  {
    if |ps| == 0 then []
    else
      assert ps == [ps[0]] + ps[1..];
      Insert(ps[0], SortPairs(ps[1..]))
  }

  // ---------------------------------------------------------------------
  // Monotonicity
  // ---------------------------------------------------------------------

  /** `numpy.diff`: consecutive differences, empty for fewer than two values. */
  function Diff(s: seq<real>): (d: seq<real>)
    ensures |d| == if |s| < 2 then 0 else |s| - 1
    ensures forall i :: 0 <= i < |d| ==> d[i] == s[i + 1] - s[i]
  {
    if |s| < 2 then [] else seq(|s| - 1, i requires 0 <= i < |s| - 1 => s[i + 1] - s[i])
  }

  /** `numpy.diff(predictions) >= 0` everywhere: no consecutive difference is negative. */
  predicate NoDrop(p: seq<real>) {
    forall i :: 0 <= i < |Diff(p)| ==> Diff(p)[i] >= 0.0
  }

  /** `is_monotonic`: `numpy.all(numpy.diff(predictions) >= 0)`, which holds exactly when the list never decreases. */
  function IsMonotonic(predictions: seq<real>): (b: bool)
    ensures b <==> forall i, j :: 0 <= i <= j < |predictions| ==> predictions[i] <= predictions[j]
  {
    NoDropIffOrdered(predictions);
    NoDrop(predictions)
  }

  /** Every list of fewer than two predictions passes the monotonic check. */
  lemma ShortIsMonotonic(predictions: seq<real>)
    requires |predictions| < 2
    ensures IsMonotonic(predictions)
  {
  }

  /** The consecutive-difference check holds exactly when the whole list is non-decreasing. */
  lemma {:induction false} NoDropIffOrdered(p: seq<real>)
    ensures NoDrop(p) <==> forall i, j :: 0 <= i <= j < |p| ==> p[i] <= p[j]
  {
    if NoDrop(p) {
      forall i, j | 0 <= i <= j < |p|
        ensures p[i] <= p[j]
      {
        StepsUp(p, i, j);
      }
    }
    if forall i, j :: 0 <= i <= j < |p| ==> p[i] <= p[j] {
      forall i | 0 <= i < |Diff(p)|
        ensures Diff(p)[i] >= 0.0
      {
        assert p[i] <= p[i + 1];
      }
    }
  }

  lemma {:induction false} StepsUp(p: seq<real>, i: int, j: int)
    requires NoDrop(p)
    requires 0 <= i <= j < |p|
    ensures p[i] <= p[j]
    decreases j - i
  {
    if i < j {
      assert Diff(p)[i] == p[i + 1] - p[i];
      StepsUp(p, i + 1, j);
    }
  }

  /** What the affine fallback predicts at each sample. */
  function AffinePredictions(slope: real, intercept: real, xs: seq<real>): (r: seq<real>)
    ensures |r| == |xs|
    ensures forall i :: 0 <= i < |xs| ==> r[i] == slope * xs[i] + intercept
  {
    seq(|xs|, i requires 0 <= i < |xs| => slope * xs[i] + intercept)
  }

  /** On samples sorted by measured value, the positive-slope fallback passes the same monotonic check. */
  lemma AffineIsMonotonic(slope: real, intercept: real, xs: seq<real>)
    requires slope > 0.0
    requires forall i, j :: 0 <= i <= j < |xs| ==> xs[i] <= xs[j]
    ensures IsMonotonic(AffinePredictions(slope, intercept, xs))
  {
    var p := AffinePredictions(slope, intercept, xs);
    forall i | 0 <= i < |Diff(p)|
      ensures Diff(p)[i] >= 0.0
    {
      assert xs[i] <= xs[i + 1];
      assert p[i + 1] - p[i] == slope * (xs[i + 1] - xs[i]);
    }
  }

  // ---------------------------------------------------------------------
  // The fits
  // ---------------------------------------------------------------------

  /** `linear`: the `polyfit` line, rejected unless its slope is positive. */
  function Linear(fitter: Fitter, xs: seq<real>, ys: seq<real>): (r: Result<Curve, CalError>)
    ensures r.Ok? <==> fitter.polyfit(xs, ys).0 > 0.0
    ensures r.Ok? ==> r.value == Affine(fitter.polyfit(xs, ys).0, fitter.polyfit(xs, ys).1)
    ensures r.Err? ==> r.error == NonPositiveSlope
  {
    var (m, b) := fitter.polyfit(xs, ys);
    if m > 0.0 then Ok(Affine(m, b)) else Err(NonPositiveSlope)
  }

  /** `piece_linear`: the `pwlf` fit with `pieces` segments if it is monotonic, otherwise nothing. */
  function PieceLinear(fitter: Fitter, xs: seq<real>, ys: seq<real>, pieces: nat): (r: Option<Curve>)
    ensures r.Some? <==> IsMonotonic(fitter.pieceFit(xs, ys, pieces))
    ensures r.Some? ==> r.value == Piecewise(pieces, fitter.pieceFit(xs, ys, pieces))
  {
    var predictions := fitter.pieceFit(xs, ys, pieces);
    if IsMonotonic(predictions) then Some(Piecewise(pieces, predictions)) else None
  }

  // ---------------------------------------------------------------------
  // The segment-count search
  // ---------------------------------------------------------------------

  /**
   * The clock reading taken before fitting `pieces` segments is at most 60
   * seconds after the start reading, so the fit is started.
   */
  predicate InBudget(clock: nat -> real, pieces: nat)
    requires pieces >= 1
  {
    clock(pieces - 1) - clock(0) <= 60.0
  }

  /** The best curve once all counts below `pieces` have been fitted monotonically. */
  function BestBefore(fitted: nat -> seq<real>, fallback: Curve, pieces: nat): (c: Curve)
    requires pieces >= 2
    ensures pieces == 2 ==> c == fallback
    ensures pieces > 2 ==> c.Piecewise? && c.pieces == pieces - 1
  {
    if pieces == 2 then fallback else Piecewise(pieces - 1, fitted(pieces - 1))
  }

  /** The segment count at which the search stopped; 10 when every count was fitted. */
  function StopCount(stop: Stop): nat
  {
    match stop
    case Exhausted => MaxPieces + 1
    case OverBudget(k) => k
    case NonMonotonic(k) => k
  }

  /** The counts `lo`, `lo + 1`, ..., `hi - 1`. */
  function Range(lo: nat, hi: nat): (r: seq<nat>)
    requires lo <= hi
    ensures |r| == hi - lo
    ensures forall i :: 0 <= i < |r| ==> r[i] == lo + i
    decreases hi - lo
  {
    if lo == hi then [] else [lo] + Range(lo + 1, hi)
  }

  /**
   * The search from segment count `pieces` on, once every smaller count from
   * 2 was fitted monotonically: `fitted(n)` is the `pwlf` prediction with `n`
   * segments, `clock(k)` the k-th clock reading (reading 0 is the start).
   */
  function SearchFrom(fitted: nat -> seq<real>, clock: nat -> real, fallback: Curve, pieces: nat): (s: Search)
    requires 2 <= pieces <= MaxPieces + 1
    ensures |s.tried| <= MaxPieces + 1 - pieces
    decreases MaxPieces + 1 - pieces
  {
    if pieces == MaxPieces + 1 then Search(BestBefore(fitted, fallback, pieces), [], Exhausted)
    else if !InBudget(clock, pieces) then Search(BestBefore(fitted, fallback, pieces), [], OverBudget(pieces))
    else if !IsMonotonic(fitted(pieces)) then Search(BestBefore(fitted, fallback, pieces), [pieces], NonMonotonic(pieces))
    else
      var rest := SearchFrom(fitted, clock, fallback, pieces + 1);
      Search(rest.curve, [pieces] + rest.tried, rest.stop)
  }

  /**
   * The search from `pieces` on stops at a count no smaller, and the counts
   * it fitted run up from `pieces` without a gap: up to the stopping count,
   * and including it when that fit was the non-monotonic one.
   */
  lemma {:induction false} SearchTriesInOrder(fitted: nat -> seq<real>, clock: nat -> real, fallback: Curve, pieces: nat)
    requires 2 <= pieces <= MaxPieces + 1
    ensures var s := SearchFrom(fitted, clock, fallback, pieces);
      && pieces <= StopCount(s.stop) <= MaxPieces + 1
      && s.tried == Range(pieces, pieces + |s.tried|)
      && |s.tried| == StopCount(s.stop) - pieces + (if s.stop.NonMonotonic? then 1 else 0)
    decreases MaxPieces + 1 - pieces
  {
    if pieces <= MaxPieces && InBudget(clock, pieces) && IsMonotonic(fitted(pieces)) {
      var s := SearchFrom(fitted, clock, fallback, pieces);
      var rest := SearchFrom(fitted, clock, fallback, pieces + 1);
      assert s.stop == rest.stop && s.tried == [pieces] + rest.tried;
      SearchTriesInOrder(fitted, clock, fallback, pieces + 1);
      assert Range(pieces, pieces + |s.tried|) == [pieces] + Range(pieces + 1, pieces + |s.tried|);
    }
  }

  /** Every count from `pieces` up to the stopping one was in budget and fitted monotonically. */
  lemma {:induction false} SearchPassesBeforeStop(fitted: nat -> seq<real>, clock: nat -> real, fallback: Curve, pieces: nat)
    requires 2 <= pieces <= MaxPieces + 1
    ensures var s := SearchFrom(fitted, clock, fallback, pieces);
      forall k :: pieces <= k < StopCount(s.stop) ==> InBudget(clock, k) && IsMonotonic(fitted(k))
    decreases MaxPieces + 1 - pieces
  {
    var s := SearchFrom(fitted, clock, fallback, pieces);
    if pieces <= MaxPieces && InBudget(clock, pieces) && IsMonotonic(fitted(pieces)) {
      var rest := SearchFrom(fitted, clock, fallback, pieces + 1);
      assert s.stop == rest.stop;
      SearchPassesBeforeStop(fitted, clock, fallback, pieces + 1);
      forall k | pieces <= k < StopCount(s.stop)
        ensures InBudget(clock, k) && IsMonotonic(fitted(k))
      {
        if k > pieces {
          assert pieces + 1 <= k < StopCount(rest.stop);
        }
      }
    } else {
      assert StopCount(s.stop) == pieces;
    }
  }

  /** The search keeps the best curve before its stopping count, and the stop reason holds there. */
  lemma {:induction false} SearchStopsWithBest(fitted: nat -> seq<real>, clock: nat -> real, fallback: Curve, pieces: nat)
    requires 2 <= pieces <= MaxPieces + 1
    ensures var s := SearchFrom(fitted, clock, fallback, pieces);
      && pieces <= StopCount(s.stop)
      && s.curve == BestBefore(fitted, fallback, StopCount(s.stop))
      && (s.stop.OverBudget? ==> s.stop.pieces <= MaxPieces && !InBudget(clock, s.stop.pieces))
      && (s.stop.NonMonotonic? ==>
        s.stop.pieces <= MaxPieces && InBudget(clock, s.stop.pieces) && !IsMonotonic(fitted(s.stop.pieces)))
    decreases MaxPieces + 1 - pieces
  {
    if pieces <= MaxPieces && InBudget(clock, pieces) && IsMonotonic(fitted(pieces)) {
      SearchStopsWithBest(fitted, clock, fallback, pieces + 1);
    }
  }

  /**
   * The whole search, started with the affine fallback: what comes back is
   * the fallback or a monotonic `pwlf` fit with 2 to 9 segments; the counts
   * fitted run 2, 3, ... with no gap; a non-monotonic fit ends the search and
   * the previous count's fit (or the fallback) is kept; an exceeded time
   * budget ends it before the next fit with the best curve so far.
   */
  function ProgressiveSearch(fitted: nat -> seq<real>, clock: nat -> real, fallback: Curve): (s: Search)
    ensures s.curve == fallback ||
      (s.curve.Piecewise? && 2 <= s.curve.pieces <= MaxPieces &&
       s.curve.predictions == fitted(s.curve.pieces) && IsMonotonic(s.curve.predictions))
    ensures |s.tried| <= MaxPieces - 1
    ensures forall i :: 0 <= i < |s.tried| ==> s.tried[i] == 2 + i
  {
    SearchTriesInOrder(fitted, clock, fallback, 2);
    SearchStopsWithBest(fitted, clock, fallback, 2);
    SearchFrom(fitted, clock, fallback, 2)
  }

  /** A non-monotonic fit is the last one tried, and the fit before it (or the fallback) is kept. */
  lemma StopsAtFirstNonMonotonic(fitted: nat -> seq<real>, clock: nat -> real, fallback: Curve)
    ensures var s := ProgressiveSearch(fitted, clock, fallback);
      s.stop.NonMonotonic? ==>
        && |s.tried| > 0 && s.tried[|s.tried| - 1] == s.stop.pieces
        && !IsMonotonic(fitted(s.stop.pieces))
        && (forall k :: 2 <= k < s.stop.pieces ==> IsMonotonic(fitted(k)))
        && s.curve == (if s.stop.pieces == 2 then fallback else Piecewise(s.stop.pieces - 1, fitted(s.stop.pieces - 1)))
  {
    var s := ProgressiveSearch(fitted, clock, fallback);
    SearchTriesInOrder(fitted, clock, fallback, 2);
    SearchPassesBeforeStop(fitted, clock, fallback, 2);
    SearchStopsWithBest(fitted, clock, fallback, 2);
  }

  /** Once the budget is exceeded no further fit is started and the best curve so far is kept. */
  lemma StopsOverBudget(fitted: nat -> seq<real>, clock: nat -> real, fallback: Curve)
    ensures var s := ProgressiveSearch(fitted, clock, fallback);
      s.stop.OverBudget? ==>
        && 2 <= s.stop.pieces <= MaxPieces && s.stop.pieces !in s.tried
        && clock(s.stop.pieces - 1) - clock(0) > 60.0
        && s.curve == BestBefore(fitted, fallback, s.stop.pieces)
  {
    var s := ProgressiveSearch(fitted, clock, fallback);
    SearchTriesInOrder(fitted, clock, fallback, 2);
    SearchStopsWithBest(fitted, clock, fallback, 2);
  }

  /** Fits are started only within budget; when every count passes, the nine-segment fit is returned. */
  lemma ExhaustedKeepsLastFit(fitted: nat -> seq<real>, clock: nat -> real, fallback: Curve)
    ensures var s := ProgressiveSearch(fitted, clock, fallback);
      && (forall k :: 2 <= k < StopCount(s.stop) ==> InBudget(clock, k))
      && (s.stop.Exhausted? ==> |s.tried| == MaxPieces - 1 && s.curve == Piecewise(MaxPieces, fitted(MaxPieces)))
  {
    SearchTriesInOrder(fitted, clock, fallback, 2);
    SearchPassesBeforeStop(fitted, clock, fallback, 2);
    SearchStopsWithBest(fitted, clock, fallback, 2);
  }

  /** The search from `pieces` on, with the counts fitted before it put in front. */
  function Resumed(fitted: nat -> seq<real>, clock: nat -> real, fallback: Curve, pieces: nat, tried: seq<nat>): (s: Search)
    requires 2 <= pieces <= MaxPieces + 1
    ensures |s.tried| >= |tried| && s.tried[..|tried|] == tried
  {
    var rest := SearchFrom(fitted, clock, fallback, pieces);
    Search(rest.curve, tried + rest.tried, rest.stop)
  }

  /** A monotonic fit within budget moves the search on to the next count. */
  lemma ResumeNext(fitted: nat -> seq<real>, clock: nat -> real, fallback: Curve, pieces: nat, tried: seq<nat>)
    requires 2 <= pieces <= MaxPieces
    requires InBudget(clock, pieces) && IsMonotonic(fitted(pieces))
    ensures Resumed(fitted, clock, fallback, pieces, tried) == Resumed(fitted, clock, fallback, pieces + 1, tried + [pieces])
  {
    var rest := SearchFrom(fitted, clock, fallback, pieces + 1);
    assert tried + ([pieces] + rest.tried) == (tried + [pieces]) + rest.tried;
  }

  /** Where the search stops: past the budget, at a non-monotonic fit, or after nine segments. */
  lemma ResumeStops(fitted: nat -> seq<real>, clock: nat -> real, fallback: Curve, pieces: nat, tried: seq<nat>)
    requires 2 <= pieces <= MaxPieces + 1
    ensures pieces == MaxPieces + 1 ==>
      Resumed(fitted, clock, fallback, pieces, tried) == Search(BestBefore(fitted, fallback, pieces), tried, Exhausted)
    ensures pieces <= MaxPieces && !InBudget(clock, pieces) ==>
      Resumed(fitted, clock, fallback, pieces, tried) == Search(BestBefore(fitted, fallback, pieces), tried, OverBudget(pieces))
    ensures pieces <= MaxPieces && InBudget(clock, pieces) && !IsMonotonic(fitted(pieces)) ==>
      Resumed(fitted, clock, fallback, pieces, tried) ==
        Search(BestBefore(fitted, fallback, pieces), tried + [pieces], NonMonotonic(pieces))
  {
    assert tried + [] == tried;
  }

  /**
   * The search as the loop runs it: counts 2 to 9 in turn, leaving the loop
   * when the time budget is exceeded or a fit is not monotonic, and keeping
   * the last fit that passed.
   */
  method SearchLoop(fitter: Fitter, xs: seq<real>, ys: seq<real>, clock: nat -> real, fallback: Curve)
    returns (s: Search)
    ensures s == ProgressiveSearch((pieces: nat) => fitter.pieceFit(xs, ys, pieces), clock, fallback)
  {
    ghost var fitted := (pieces: nat) => fitter.pieceFit(xs, ys, pieces);
    assert ProgressiveSearch(fitted, clock, fallback) == Resumed(fitted, clock, fallback, 2, []);
    var last := fallback;
    var tried: seq<nat> := [];
    var pieces: nat := 2;
    while pieces <= MaxPieces
      invariant 2 <= pieces <= MaxPieces + 1
      invariant last == BestBefore(fitted, fallback, pieces)
      invariant Resumed(fitted, clock, fallback, 2, []) == Resumed(fitted, clock, fallback, pieces, tried)
      decreases MaxPieces + 1 - pieces
    {
      ResumeStops(fitted, clock, fallback, pieces, tried);
      if clock(pieces - 1) - clock(0) > 60.0 {
        return Search(last, tried, OverBudget(pieces));
      }
      var next := PieceLinear(fitter, xs, ys, pieces);
      if next.None? {
        return Search(last, tried + [pieces], NonMonotonic(pieces));
      }
      ResumeNext(fitted, clock, fallback, pieces, tried);
      last := next.value;
      tried := tried + [pieces];
      pieces := pieces + 1;
    }
    ResumeStops(fitted, clock, fallback, pieces, tried);
    s := Search(last, tried, Exhausted);
  }

  // ---------------------------------------------------------------------
  // The whole calibration
  // ---------------------------------------------------------------------

  /** The (measured, reference) values at each grid position. */
  function Samples(measured: Profile, reference: Profile, ops: ProfileOps, grid: seq<int>): (ps: seq<(real, real)>)
    ensures |ps| == |grid|
    ensures forall i :: 0 <= i < |grid| ==> ps[i] == (ops.getY(measured, grid[i]), ops.getY(reference, grid[i]))
  {
    seq(|grid|, i requires 0 <= i < |grid| => (ops.getY(measured, grid[i]), ops.getY(reference, grid[i])))
  }

  /**
   * The fitting half of `cross_calibrate` on the sorted pairs: the affine
   * fallback first, which fails on a non-positive slope, then the search of
   * piecewise fits seeded with it.
   */
  function FitSorted(pairs: seq<(real, real)>, fitter: Fitter, clock: nat -> real): (r: Result<Calibration, CalError>)
    ensures var (xs, ys) := Unzip(pairs);
      && (r.Err? <==> Linear(fitter, xs, ys).Err?)
      && (r.Err? ==> r.error == NonPositiveSlope)
      && (r.Ok? ==>
        && r.value.pairs == pairs
        && Linear(fitter, xs, ys) == Ok(r.value.fallback)
        && r.value.fallback.Affine? && r.value.fallback.slope > 0.0
        && r.value.search == ProgressiveSearch((pieces: nat) => fitter.pieceFit(xs, ys, pieces), clock, r.value.fallback))
  {
    var (xs, ys) := Unzip(pairs);
    match Linear(fitter, xs, ys)
    case Err(e) => Err(e)
    case Ok(fallback) =>
      Ok(Calibration(pairs, fallback, ProgressiveSearch((pieces: nat) => fitter.pieceFit(xs, ys, pieces), clock, fallback)))
  }

  /**
   * `cross_calibrate` on profiles already read: align the measured profile
   * to the reference, sample both on the overlap grid, sort the pairs by
   * measured value, fit the affine fallback, then search the piecewise fits.
   * The errors come in the order the source raises them.
   */
  function CrossCalibrate(reference: Profile, measured: Profile, ops: ProfileOps, fitter: Fitter, clock: nat -> real)
    : (r: Result<Calibration, CalError>)
    ensures var grid := OverlapGrid(reference, ops.alignTo(measured, reference), ops);
      && (grid.Err? ==> r == Err(grid.error))
      && (grid.Ok? && |grid.value| == 0 ==> r == Err(NoSamples))
    ensures var aligned := ops.alignTo(measured, reference);
      var grid := OverlapGrid(reference, aligned, ops);
      grid.Ok? && |grid.value| > 0 ==>
        var sorted := Unzip(SortPairs(Samples(aligned, reference, ops, grid.value)));
        && (r.Ok? || r == Err(NonPositiveSlope))
        && (r == Err(NonPositiveSlope) <==> Linear(fitter, sorted.0, sorted.1).Err?)
    ensures r.Ok? ==>
      var aligned := ops.alignTo(measured, reference);
      var grid := OverlapGrid(reference, aligned, ops).value;
      var c := r.value;
      var (xs, ys) := Unzip(c.pairs);
      && SortedByMeasured(c.pairs)
      && multiset(c.pairs) == multiset(Samples(aligned, reference, ops, grid))
      && Linear(fitter, xs, ys) == Ok(c.fallback)
      && c.fallback.Affine? && c.fallback.slope > 0.0
      && c.search == ProgressiveSearch((pieces: nat) => fitter.pieceFit(xs, ys, pieces), clock, c.fallback)
      && (c.search.curve == c.fallback || (c.search.curve.Piecewise? && IsMonotonic(c.search.curve.predictions)))
  {
    var aligned := ops.alignTo(measured, reference);
    match OverlapGrid(reference, aligned, ops)
    case Err(e) => Err(e)
    case Ok(grid) =>
      if |grid| == 0 then Err(NoSamples)
      else FitSorted(SortPairs(Samples(aligned, reference, ops, grid)), fitter, clock)
  }
}

=== FILE: profile_from.dfy ===
/**
 * Building profiles: from position and value lists, from (position, value)
 * pairs, as a synthetic unit pulse, and from the text of an SNC Profiler
 * `.prs` file (metadata block, detector counts, calibration factors).
 */
module ProfileFrom {
  import opened Results
  import opened PyText
  import opened Profiles

  /** The exceptions the importers raise, by Python exception class. */
  datatype ImportError =
    | IndexError            // `tuples` of an empty list
    | TypeError             // an axis other than 'tvs' or 'rad'
    | ValueError            // a token `float` cannot read
    | ZeroDivisionError     // numpy's `arange` with a zero increment
    | NameError(name: string)   // a row the Profiler reader needs never appeared
    | BroadcastError        // numpy's ValueError: counts and factors of incompatible lengths

  // ---------------------------------------------------------------------
  // lists, tuples
  // ---------------------------------------------------------------------

  /** `lists(x, y, meta)`: the profile with exactly these positions, values and metadata. */
  function Lists(x: seq<int>, y: seq<real>, meta: map<string, string>): (p: Profile)
    ensures p.x == x && p.y == y && p.meta == meta
  {
    Profile(x, y, meta)
  }

  /** Python's `zip(xs, ys)`: pairs up to the shorter length. */
  function Zip<A, B>(xs: seq<A>, ys: seq<B>): (r: seq<(A, B)>)
    ensures |r| == if |xs| < |ys| then |xs| else |ys|
    ensures forall i :: 0 <= i < |r| ==> r[i] == (xs[i], ys[i])
  {
    seq(if |xs| < |ys| then |xs| else |ys|, i requires 0 <= i < |xs| && i < |ys| => (xs[i], ys[i]))
  }

  /** `zip(*pairs)` read back as two lists: first components and second components. */
  function Unzip<A, B>(pairs: seq<(A, B)>): (r: (seq<A>, seq<B>))
    ensures |r.0| == |pairs| && |r.1| == |pairs|
    ensures forall i :: 0 <= i < |pairs| ==> pairs[i] == (r.0[i], r.1[i])
  {
    (seq(|pairs|, i requires 0 <= i < |pairs| => pairs[i].0),
     seq(|pairs|, i requires 0 <= i < |pairs| => pairs[i].1))
  }

  /** Zipping the unzipped lists gives the pairs back. */
  lemma ZipUnzip<A, B>(pairs: seq<(A, B)>)
    ensures Zip(Unzip(pairs).0, Unzip(pairs).1) == pairs
  {
  }

  /** Unzipping lists of equal length zipped together gives the lists back. */
  lemma UnzipZip<A, B>(xs: seq<A>, ys: seq<B>)
    requires |xs| == |ys|
    ensures Unzip(Zip(xs, ys)) == (xs, ys)
  {
    var (a, b) := Unzip(Zip(xs, ys));
    assert a == xs;
    assert b == ys;
  }

  /**
   * `tuples(pairs, meta)`: positions are the first components and values the
   * second, in order. `zip(*[])` is empty, so an empty list fails on `[0]`.
   */
  function Tuples(pairs: seq<(int, real)>, meta: map<string, string>): (r: Result<Profile, ImportError>)
    ensures r.Err? <==> |pairs| == 0
    ensures r.Err? ==> r.error == IndexError
    ensures r.Ok? ==> |r.value.x| == |pairs| && |r.value.y| == |pairs| && r.value.meta == meta
    ensures r.Ok? ==> forall i :: 0 <= i < |pairs| ==> pairs[i] == (r.value.x[i], r.value.y[i])
    ensures r.Ok? ==> Zip(r.value.x, r.value.y) == pairs
  {
    if |pairs| == 0 then Err(IndexError)
    else
      var (x, y) := Unzip(pairs);
      ZipUnzip(pairs);
      Ok(Lists(x, y, meta))
  }

  /** Building from pairs and building from two lists agree. */
  lemma {:induction false} TuplesAgreesWithLists(x: seq<int>, y: seq<real>, meta: map<string, string>)
    requires |x| == |y| > 0
    ensures Tuples(Zip(x, y), meta) == Ok(Lists(x, y, meta))
  {
    UnzipZip(x, y);
  }

  // ---------------------------------------------------------------------
  // pulse
  // ---------------------------------------------------------------------

  function Abs(x: int): nat {
    if x < 0 then -x else x
  }

  /**
   * One sample of `pulse` as written: 0 outside, 1 inside, 1/2 exactly on the
   * boundary, where "inside" compares `|x|` with `centre + width/2`.
   */
  function PulseValue(centre: int, width: int, x: int): (v: real)
    ensures v == 0.0 <==> Abs(x) as real > centre as real + width as real / 2.0
    ensures v == 1.0 <==> Abs(x) as real < centre as real + width as real / 2.0
    ensures v == 0.5 <==> Abs(x) as real == centre as real + width as real / 2.0
  {
    var edge := centre as real + width as real / 2.0;
    if Abs(x) as real > edge then 0.0
    else if Abs(x) as real < edge then 1.0
    else 0.5
  }

  /**
   * `pulse(centre, width, (left, right), increment, meta)`: samples at
   * `arange(left, right + increment, increment)`; a zero increment fails.
   */
  function Pulse(centre: int, width: int, domain: (int, int), increment: int, meta: map<string, string>)
    : (r: Result<Profile, ImportError>)
    ensures r.Err? <==> increment == 0
    ensures r.Err? ==> r.error == ZeroDivisionError
    ensures r.Ok? ==> |r.value.x| == |r.value.y| && r.value.meta == meta
    ensures r.Ok? ==> r.value.x == Arange(domain.0, domain.1 + increment, increment)
    ensures r.Ok? ==> forall i :: 0 <= i < |r.value.y| ==>
      r.value.y[i] in {0.0, 0.5, 1.0} &&
      (r.value.y[i] == 1.0 <==> Abs(r.value.x[i]) as real < centre as real + width as real / 2.0)
    ensures r.Ok? ==> forall i :: 0 <= i < |r.value.y| ==> r.value.y[i] == PulseValue(centre, width, r.value.x[i])
  {
    if increment == 0 then Err(ZeroDivisionError)
    else
      var xs := Arange(domain.0, domain.1 + increment, increment);
      Ok(Lists(xs, seq(|xs|, i requires 0 <= i < |xs| => PulseValue(centre, width, xs[i])), meta))
  }

  /** The written pulse depends only on `|x|`: mirrored samples agree, whatever the centre. */
  lemma PulseMirrorsAboutZero(centre: int, width: int, domain: (int, int), increment: int, i: nat, j: nat)
    requires increment != 0
    requires var p := Pulse(centre, width, domain, increment, map[]).value;
      i < |p.x| && j < |p.x| && p.x[i] == -p.x[j]
    ensures var p := Pulse(centre, width, domain, increment, map[]).value;
      p.y[i] == p.y[j]
  {
  }

  /** One sample of a unit pulse of the given width centred on `centre`. */
  function CentredPulseValue(centre: int, width: int, x: int): (v: real)
    ensures v == 1.0 <==> (centre as real - width as real / 2.0 < x as real < centre as real + width as real / 2.0)
    ensures v == 0.0 <==> (x as real < centre as real - width as real / 2.0 || x as real > centre as real + width as real / 2.0)
    ensures v in {0.0, 0.5, 1.0}
  {
    var edge := width as real / 2.0;
    if Abs(x - centre) as real > edge then 0.0
    else if Abs(x - centre) as real < edge then 1.0
    else 0.5
  }

  /** The pulse with the centre honoured: `|x - centre|` compared with `width/2`. */
  function CentredPulse(centre: int, width: int, domain: (int, int), increment: int, meta: map<string, string>)
    : (r: Result<Profile, ImportError>)
    ensures r.Err? <==> increment == 0
    ensures r.Err? ==> r.error == ZeroDivisionError
    ensures r.Ok? ==> |r.value.x| == |r.value.y| && r.value.meta == meta
    ensures r.Ok? ==> r.value.x == Arange(domain.0, domain.1 + increment, increment)
    ensures r.Ok? ==> forall i :: 0 <= i < |r.value.y| ==>
      (r.value.y[i] == 1.0 <==>
        centre as real - width as real / 2.0 < r.value.x[i] as real < centre as real + width as real / 2.0)
    ensures r.Ok? ==> forall i :: 0 <= i < |r.value.y| ==> r.value.y[i] == CentredPulseValue(centre, width, r.value.x[i])
  {
    if increment == 0 then Err(ZeroDivisionError)
    else
      var xs := Arange(domain.0, domain.1 + increment, increment);
      Ok(Lists(xs, seq(|xs|, i requires 0 <= i < |xs| => CentredPulseValue(centre, width, xs[i])), meta))
  }

  /** The centred pulse is mirror-symmetric about its centre. */
  lemma CentredPulseSymmetric(centre: int, width: int, d: int)
    ensures CentredPulseValue(centre, width, centre + d) == CentredPulseValue(centre, width, centre - d)
  {
    assert Abs(centre + d - centre) == Abs(centre - d - centre);
  }

  /**
   * With a non-zero centre the written pulse is not where it was asked to be:
   * centre 100 mm and width 40 mm should cover (80, 120), yet the sample at
   * -100 mm reads 1 and the one at 110 mm too, while the centred pulse reads 0 at -100.
   */
  lemma PulseIgnoresCentre()
    ensures PulseValue(100, 40, -100) == 1.0
    ensures CentredPulseValue(100, 40, -100) == 0.0
    ensures PulseValue(100, 40, -100) != CentredPulseValue(100, 40, -100)
  {
  }

  // ---------------------------------------------------------------------
  // SNC Profiler reader: metadata munge
  // ---------------------------------------------------------------------

  /**
   * The metadata text: lines joined, tabs deleted, `': '` tightened to `':'`,
   * two-item rows broken before their second label, and everything from the
   * first `TYPE` on cut off.
   */
  function MungeText(lines: seq<string>): (t: string)
    ensures !Contains(t, "TYPE")
    ensures |t| <= |ReflowText(lines)| && t == ReflowText(lines)[..|t|]
    ensures |t| < |ReflowText(lines)| ==> StartsWith(ReflowText(lines)[|t|..], "TYPE")
  {
    UpTo(ReflowText(lines), "TYPE")
  }

  /**
   * The rewriting of the metadata text before it is cut at `TYPE`: tabs
   * deleted, `': '` tightened, and each second label of a two-item row put
   * on a line of its own. Each break step states its own effect; the text
   * as a whole keeps no tab and ends with every `Collimator Angle:` at a
   * line start.
   */
  function ReflowText(lines: seq<string>): (t: string)
    ensures '\t' !in t
    ensures StartsLines(t, "Collimator Angle:")
  {
    var joined := Join(lines, "\n");
    ReplaceDeletesChar(joined, '\t');
    var t0 := Replace(Replace(joined, "\t", ""), ": ", ":");
    ReplaceAvoids(Replace(joined, "\t", ""), ": ", ":", '\t');
    var t1 := BreakAtSpace(t0, "Time:");
    ReplaceAvoids(t0, " " + "Time:", "\n" + "Time:", '\t');
    var t2 := BreakAtSpace(t1, "Revision:");
    ReplaceAvoids(t1, " " + "Revision:", "\n" + "Revision:", '\t');
    LastCharOnlyAtEnd("Energy:");
    var t3 := BreakBefore(t2, "Energy:");
    ReplaceAvoids(t2, "Energy:", "\n" + "Energy:", '\t');
    LastCharOnlyAtEnd("Dose:");
    var t4 := BreakBefore(t3, "Dose:");
    ReplaceAvoids(t3, "Dose:", "\n" + "Dose:", '\t');
    LastCharOnlyAtEnd("Collimator Angle:");
    ReplaceAvoids(t4, "Collimator Angle:", "\n" + "Collimator Angle:", '\t');
    BreakBefore(t4, "Collimator Angle:")
  }

  /** Deleting tabs leaves no tab behind and every other character in place. */
  lemma ReflowDropsTabs(lines: seq<string>)
    ensures '\t' !in Replace(Join(lines, "\n"), "\t", "")
    ensures Replace(Join(lines, "\n"), "\t", "") == Without(Join(lines, "\n"), '\t')
  {
    ReplaceDeletesChar(Join(lines, "\n"), '\t');
  }

  /**
   * The key/value entries of the metadata lines: each line that is non-empty
   * and holds a colon, split at its first colon, kept when the value is non-empty.
   */
  function Entries(lines: seq<string>): (es: seq<(string, string)>)
    ensures |es| <= |lines|
    ensures forall i :: 0 <= i < |es| ==>
      es[i].1 != [] && ':' !in es[i].0 && es[i].0 + ":" + es[i].1 in lines
    ensures forall j :: 0 <= j < |lines| && ':' in lines[j] && SplitAtFirst(lines[j], ':').1 != [] ==>
      SplitAtFirst(lines[j], ':') in es
  {
    if |lines| == 0 then []
    else
      var rest := Entries(lines[1..]);
      assert forall j :: 1 <= j < |lines| ==> lines[j] == lines[1..][j - 1];
      var line := lines[0];
      if line != [] && ':' in line && SplitAtFirst(line, ':').1 != [] then
        [SplitAtFirst(line, ':')] + rest
      else rest
  }

  /** Entries are read line by line, so the entries of joined line lists are joined in order. */
  lemma {:induction false} EntriesAppend(a: seq<string>, b: seq<string>)
    ensures Entries(a + b) == Entries(a) + Entries(b)
    decreases |a|
  {
    if |a| == 0 {
      assert a + b == b;
    } else {
      assert (a + b)[0] == a[0];
      assert (a + b)[1..] == a[1..] + b;
      EntriesAppend(a[1..], b);
    }
  }

  /** `dict(entries)`: every key present; a repeated key keeps its last value. */
  function ToDict(es: seq<(string, string)>): (m: map<string, string>)
    ensures forall k :: k in m <==> HasKey(es, k)
    ensures forall k :: k in m ==> LastEntry(es, k, m[k])
  {
    if |es| == 0 then map[]
    else
      var m := ToDict(es[..|es| - 1]);
      ToDictStep(es, m);
      m[es[|es| - 1].0 := es[|es| - 1].1]
  }

  ghost predicate HasKey(es: seq<(string, string)>, k: string) {
    exists i :: 0 <= i < |es| && es[i].0 == k
  }

  /** Entry `i` carries key `k` with value `v`, and no later entry has key `k`. */
  ghost predicate LastEntry(es: seq<(string, string)>, k: string, v: string) {
    exists i :: 0 <= i < |es| && es[i] == (k, v) && forall j :: i < j < |es| ==> es[j].0 != k
  }

  /** Adding the last entry to the dictionary of the others. */
  lemma ToDictStep(es: seq<(string, string)>, m: map<string, string>)
    requires |es| > 0
    requires forall k :: k in m <==> HasKey(es[..|es| - 1], k)
    requires forall k :: k in m ==> LastEntry(es[..|es| - 1], k, m[k])
    ensures var m' := m[es[|es| - 1].0 := es[|es| - 1].1];
      (forall k :: k in m' <==> HasKey(es, k)) &&
      (forall k :: k in m' ==> LastEntry(es, k, m'[k]))
  {
    var n := |es| - 1;
    var front := es[..n];
    var last := es[n];
    var m' := m[last.0 := last.1];
    forall k
      ensures k in m' <==> HasKey(es, k)
    {
      if HasKey(es, k) && k != last.0 {
        var i :| 0 <= i < |es| && es[i].0 == k;
        assert i < n && front[i].0 == k;
      }
      if k in m && k != last.0 {
        var i :| 0 <= i < |front| && front[i].0 == k;
        assert es[i].0 == k;
      }
    }
    forall k | k in m'
      ensures LastEntry(es, k, m'[k])
    {
      if k == last.0 {
        assert es[n] == (k, m'[k]);
      } else {
        var i :| 0 <= i < |front| && front[i] == (k, m[k]) && forall j :: i < j < |front| ==> front[j].0 != k;
        assert es[i] == (k, m'[k]);
        assert forall j :: i < j < |es| ==> es[j].0 != k by {
          forall j | i < j < |es|
            ensures es[j].0 != k
          {
            if j < n {
              assert es[j] == front[j];
            }
          }
        }
      }
    }
  }

  /** The entry a dictionary value comes from has a non-empty value and a colon-free key. */
  lemma EntryShape(es: seq<(string, string)>, k: string, v: string)
    requires forall i :: 0 <= i < |es| ==> es[i].1 != [] && ':' !in es[i].0
    requires LastEntry(es, k, v)
    ensures v != [] && ':' !in k
  {
    var i :| 0 <= i < |es| && es[i] == (k, v) && forall j :: i < j < |es| ==> es[j].0 != k;
    assert es[i].1 != [] && ':' !in es[i].0;
  }

  /** The key/value entries of the munged metadata text, in file order. */
  function MetaEntries(lines: seq<string>): seq<(string, string)> {
    Entries(SplitOn(MungeText(lines), '\n'))
  }

  /**
   * The metadata dictionary `snc_profiler` builds from the file's lines: the
   * keys of the metadata entries, each with the value of its last entry.
   */
  function MungeMeta(lines: seq<string>): (m: map<string, string>)
    ensures forall k :: k in m <==> HasKey(MetaEntries(lines), k)
    ensures forall k :: k in m ==> LastEntry(MetaEntries(lines), k, m[k])
    ensures forall k :: k in m ==> m[k] != [] && ':' !in k
  {
    var es := MetaEntries(lines);
    var m := ToDict(es);
    forall k | k in m
      ensures m[k] != [] && ':' !in k
    {
      EntryShape(es, k, m[k]);
    }
    m
  }

  // ---------------------------------------------------------------------
  // SNC Profiler reader: counts, calibration and dose
  // ---------------------------------------------------------------------

  /** Leading text of the rows the reader looks for; the writer emits the same tags. */
  const CalibrationTag: string := "Calibration"
  const DataTag: string := "Data:"
  const DosePerCountTag: string := "Dose Per Count:"

  datatype RowKind = CalibrationRow | DataRow | DosePerCountRow | OtherRow

  /** No row starts with two of the three tags, so the order of the tests never matters. */
  lemma TagsExclusive(row: string)
    ensures !(StartsWith(row, CalibrationTag) && StartsWith(row, DataTag))
    ensures !(StartsWith(row, CalibrationTag) && StartsWith(row, DosePerCountTag))
    ensures !(StartsWith(row, DataTag) && StartsWith(row, DosePerCountTag))
  {
    if StartsWith(row, DataTag) {
      assert row[0] == row[..|DataTag|][0] == 'D';
      DiffersAt(row, CalibrationTag, 0);
      assert row[1] == row[..|DataTag|][1] == 'a';
      DiffersAt(row, DosePerCountTag, 1);
    }
    if StartsWith(row, DosePerCountTag) {
      assert row[0] == row[..|DosePerCountTag|][0] == 'D';
      DiffersAt(row, CalibrationTag, 0);
    }
  }

  /** The `if`/`elif` chain that decides what a row of the file holds. */
  function Classify(row: string): (k: RowKind)
    ensures k == CalibrationRow <==> StartsWith(row, CalibrationTag) && !Contains(row, "File")
    ensures k == DataRow <==> StartsWith(row, DataTag)
    ensures k == DosePerCountRow <==> StartsWith(row, DosePerCountTag)
  {
    HeadIsStartsWith(row, CalibrationTag);
    HeadIsStartsWith(row, DataTag);
    HeadIsStartsWith(row, DosePerCountTag);
    TagsExclusive(row);
    if Head(row, 11) == CalibrationTag && !Contains(row, "File") then CalibrationRow
    else if Head(row, 5) == DataTag then DataRow
    else if Head(row, 15) == DosePerCountTag then DosePerCountRow
    else OtherRow
  }

  /** What the row scan has read so far; a later matching row replaces an earlier one. */
  datatype Readings = Readings(calibs: Option<seq<real>>, counts: Option<seq<real>>, dosePerCount: Option<real>)

  /** Python's `s[lo:hi]` on a list, with out-of-range bounds clipped. */
  function Slice<T>(s: seq<T>, lo: nat, hi: nat): (r: seq<T>)
    ensures lo <= hi <= |s| ==> r == s[lo..hi]
    ensures |r| == if lo < hi && lo < |s| then (if hi < |s| then hi else |s|) - lo else 0
    ensures forall i :: 0 <= i < |r| ==> r[i] == s[lo + i]
  {
    var h := if hi < |s| then hi else |s|;
    var l := if lo < h then lo else h;
    s[l..h]
  }

  /**
   * A dose-per-count row splits into at least three words, the tag's two and
   * the one `Count:` starts, so its last word always exists.
   */
  lemma TaggedRowWords(row: string)
    requires Classify(row) == DosePerCountRow
    ensures |Words(row)| >= 3
  {
    var rest := row[|DosePerCountTag|..];
    var count := "Count:" + rest;
    assert row == "Dose" + [' '] + ("Per" + [' '] + count) by {
      assert row == row[..|DosePerCountTag|] + rest;
    }
    WordsOfNonSpaceStart(count);
    WordThenSpace("Per", ' ', count);
    WordThenSpace("Dose", ' ', "Per" + [' '] + count);
  }

  /**
   * Reads one row; a token `float` cannot read raises ValueError at that row.
   * A calibration row gives the factors after its first word, a data row its
   * words 5 to 144 (fewer when the row is short), a dose-per-count row its
   * last word; any other row changes nothing.
   */
  function ReadRow(row: string, st: Readings): (r: Result<Readings, ImportError>)
    ensures Classify(row) == OtherRow ==> r == Ok(st)
    ensures Classify(row) == CalibrationRow ==>
      var vs := ParseAll(Slice(Words(row), 1, |Words(row)|));
      (vs.None? ==> r == Err(ValueError)) && (vs.Some? ==> r == Ok(st.(calibs := vs)))
    ensures Classify(row) == DataRow ==>
      var vs := ParseAll(Slice(Words(row), 5, 145));
      (vs.None? ==> r == Err(ValueError)) && (vs.Some? ==> r == Ok(st.(counts := vs)))
    ensures Classify(row) == DosePerCountRow ==>
      var ws := Words(row);
      |ws| >= 3 &&
      var v := ParseReal(ws[|ws| - 1]);
      (v.None? ==> r == Err(ValueError)) && (v.Some? ==> r.Ok? && r.value == st.(dosePerCount := v))
    ensures r.Ok? && Classify(row) != CalibrationRow ==> r.value.calibs == st.calibs
    ensures r.Ok? && Classify(row) != DataRow ==> r.value.counts == st.counts
    ensures r.Ok? && Classify(row) != DosePerCountRow ==> r.value.dosePerCount == st.dosePerCount
    ensures r.Err? ==> Classify(row) != OtherRow
  {
    var ws := Words(row);
    match Classify(row)
    case CalibrationRow =>
      (match ParseAll(Slice(ws, 1, |ws|))
       case None => Err(ValueError)
       case Some(vs) => Ok(st.(calibs := Some(vs))))
    case DataRow =>
      (match ParseAll(Slice(ws, 5, 145))
       case None => Err(ValueError)
       case Some(vs) => Ok(st.(counts := Some(vs))))
    case DosePerCountRow =>
      TaggedRowWords(row);
      (match ParseReal(ws[|ws| - 1])
       case None => Err(ValueError)
       case Some(v) => Ok(st.(dosePerCount := Some(v))))
    case OtherRow => Ok(st)
  }

  /**
   * Reads the rows in file order, stopping at the first error. A reading no
   * row of its kind touches keeps its value, and only a picked row can fail.
   */
  function ReadRows(rows: seq<string>, st: Readings): (r: Result<Readings, ImportError>)
    ensures r.Ok? && (forall i :: 0 <= i < |rows| ==> Classify(rows[i]) != CalibrationRow) ==>
      r.value.calibs == st.calibs
    ensures r.Ok? && (forall i :: 0 <= i < |rows| ==> Classify(rows[i]) != DataRow) ==>
      r.value.counts == st.counts
    ensures r.Ok? && (forall i :: 0 <= i < |rows| ==> Classify(rows[i]) != DosePerCountRow) ==>
      r.value.dosePerCount == st.dosePerCount
    ensures r.Err? ==> exists i :: 0 <= i < |rows| && Classify(rows[i]) != OtherRow
    decreases |rows|
  {
    if |rows| == 0 then Ok(st)
    else match ReadRow(rows[0], st)
      case Err(e) => Err(e)
      case Ok(st') => ReadRows(rows[1..], st')
  }

  /** Reading a file in two parts is reading the first part and then the second. */
  lemma {:induction false} ReadRowsAppend(a: seq<string>, b: seq<string>, st: Readings)
    ensures ReadRows(a + b, st) == match ReadRows(a, st)
      case Err(e) => Err(e)
      case Ok(st') => ReadRows(b, st')
    decreases |a|
  {
    if |a| > 0 {
      assert (a + b)[0] == a[0];
      assert (a + b)[1..] == a[1..] + b;
      match ReadRow(a[0], st)
      case Err(e) =>
      case Ok(st') => ReadRowsAppend(a[1..], b, st');
    } else {
      assert a + b == b;
    }
  }

  /** The counts come from the last data row: a later data row replaces an earlier one. */
  lemma LastDataRowWins(a: seq<string>, d: string, b: seq<string>, st: Readings)
    requires Classify(d) == DataRow
    requires forall i :: 0 <= i < |b| ==> Classify(b[i]) != DataRow
    ensures ReadRows(a + [d] + b, st).Ok? ==>
      ReadRows(a + [d] + b, st).value.counts == ParseAll(Slice(Words(d), 5, 145))
  {
    ReadRowsAppend(a + [d], b, st);
    DataRowLast(a, d, st);
  }

  /** Rows ending in a data row that read leave that row's counts. */
  lemma DataRowLast(a: seq<string>, d: string, st: Readings)
    requires Classify(d) == DataRow
    ensures ReadRows(a + [d], st).Ok? ==> ReadRows(a + [d], st).value.counts == ParseAll(Slice(Words(d), 5, 145))
  {
    ReadRowsAppend(a, [d], st);
    if ReadRows(a, st).Ok? {
      var st1 := ReadRows(a, st).value;
      assert ReadRows([d], st1) == ReadRow(d, st1);
    }
  }

  /** Rows that match none of the three tags leave the readings untouched. */
  lemma {:induction false} ReadOtherRows(rows: seq<string>, st: Readings)
    requires forall i :: 0 <= i < |rows| ==> Classify(rows[i]) == OtherRow
    ensures ReadRows(rows, st) == Ok(st)
    decreases |rows|
  {
    if |rows| > 0 {
      ReadOtherRows(rows[1..], st);
    }
  }

  /**
   * numpy's `a * b` for one-dimensional arrays: element by element when the
   * lengths agree, a length-1 operand stretched to the other's length, and a
   * broadcasting error otherwise.
   */
  function Broadcast(a: seq<real>, b: seq<real>): (r: Result<seq<real>, ImportError>)
    ensures r.Ok? <==> (|a| == |b| || |a| == 1 || |b| == 1)
    ensures r.Ok? && |a| == |b| ==> |r.value| == |a| && forall i :: 0 <= i < |a| ==> r.value[i] == a[i] * b[i]
    ensures r.Ok? && |a| != |b| && |a| == 1 ==>
      |r.value| == |b| && forall i :: 0 <= i < |b| ==> r.value[i] == a[0] * b[i]
    ensures r.Ok? && |a| != |b| && |b| == 1 ==>
      |r.value| == |a| && forall i :: 0 <= i < |a| ==> r.value[i] == a[i] * b[0]
  {
    if |a| == |b| then Ok(seq(|a|, i requires 0 <= i < |a| => a[i] * b[i]))
    else if |a| == 1 then Ok(seq(|b|, i requires 0 <= i < |b| => a[0] * b[i]))
    else if |b| == 1 then Ok(seq(|a|, i requires 0 <= i < |a| => a[i] * b[0]))
    else Err(BroadcastError)
  }

  /** `counts * dose_per_count * calibs`, the names read left to right. */
  function Dose(st: Readings): (r: Result<seq<real>, ImportError>)
    ensures st.counts.None? ==> r == Err(NameError("counts"))
    ensures st.counts.Some? && st.dosePerCount.None? ==> r == Err(NameError("dose_per_count"))
    ensures st.counts.Some? && st.dosePerCount.Some? && st.calibs.None? ==> r == Err(NameError("calibs"))
    ensures r.Ok? <==>
      st.counts.Some? && st.dosePerCount.Some? && st.calibs.Some? &&
      (|st.counts.value| == |st.calibs.value| || |st.counts.value| == 1 || |st.calibs.value| == 1)
    ensures r.Ok? && |st.counts.value| == |st.calibs.value| ==>
      |r.value| == |st.counts.value| &&
      forall i :: 0 <= i < |r.value| ==>
        r.value[i] == st.counts.value[i] * st.dosePerCount.value * st.calibs.value[i]
    ensures r.Ok? && |st.counts.value| != |st.calibs.value| && |st.counts.value| == 1 ==>
      |r.value| == |st.calibs.value| &&
      forall i :: 0 <= i < |r.value| ==>
        r.value[i] == st.counts.value[0] * st.dosePerCount.value * st.calibs.value[i]
    ensures r.Ok? && |st.counts.value| != |st.calibs.value| && |st.calibs.value| == 1 ==>
      |r.value| == |st.counts.value| &&
      forall i :: 0 <= i < |r.value| ==>
        r.value[i] == st.counts.value[i] * st.dosePerCount.value * st.calibs.value[0]
  {
    match (st.counts, st.dosePerCount, st.calibs)
    case (None, _, _) => Err(NameError("counts"))
    case (Some(_), None, _) => Err(NameError("dose_per_count"))
    case (Some(_), Some(_), None) => Err(NameError("calibs"))
    case (Some(c), Some(d), Some(k)) =>
      Broadcast(seq(|c|, i requires 0 <= i < |c| => c[i] * d), k)
  }

  // ---------------------------------------------------------------------
  // SNC Profiler reader: detector positions and axes
  // ---------------------------------------------------------------------

  /** Detector counts of the two Profiler arrays, 0.4 cm apart. */
  const TvsDetectors: nat := 57
  const RadDetectors: nat := 83
  const DetectorPitch: int := 4

  /** Transverse detector positions, -11.2 cm + 0.4 cm * i, in mm. */
  function TvsPositions(): (xs: seq<int>)
    ensures |xs| == TvsDetectors
    ensures forall i :: 0 <= i < |xs| ==> xs[i] == -112 + DetectorPitch * i
  {
    seq(TvsDetectors, i => -112 + DetectorPitch * i)
  }

  /** Radial detector positions, -16.4 cm + 0.4 cm * i, in mm. */
  function RadPositions(): (xs: seq<int>)
    ensures |xs| == RadDetectors
    ensures forall i :: 0 <= i < |xs| ==> xs[i] == -164 + DetectorPitch * i
  {
    seq(RadDetectors, i => -164 + DetectorPitch * i)
  }

  /**
   * The two axes of a dose row: transverse positions paired with the first
   * 57 doses, radial positions with the rest; `zip` stops at the shorter list.
   */
  function AxisPairs(dose: seq<real>): (r: (seq<(int, real)>, seq<(int, real)>))
    ensures |r.0| == if |dose| < TvsDetectors then |dose| else TvsDetectors
    ensures forall i :: 0 <= i < |r.0| ==> r.0[i] == (-112 + DetectorPitch * i, dose[i])
    ensures |dose| <= TvsDetectors ==> |r.1| == 0
    ensures |dose| > TvsDetectors ==>
      |r.1| == (if |dose| - TvsDetectors < RadDetectors then |dose| - TvsDetectors else RadDetectors)
    ensures forall i :: 0 <= i < |r.1| ==> r.1[i] == (-164 + DetectorPitch * i, dose[TvsDetectors + i])
  {
    var rest := if |dose| > TvsDetectors then dose[TvsDetectors..] else [];
    (Zip(TvsPositions(), Slice(dose, 0, TvsDetectors)), Zip(RadPositions(), rest))
  }

  /**
   * The profile of one axis: its detector positions with the doses that fall
   * on them. An axis with no dose left fails like `tuples` of an empty list,
   * and an axis other than 'tvs' or 'rad' is a TypeError.
   */
  function AxisProfile(dose: seq<real>, axis: string, meta: map<string, string>): (r: Result<Profile, ImportError>)
    ensures axis != "tvs" && axis != "rad" ==> r == Err(TypeError)
    ensures axis == "tvs" ==> (r.Err? <==> |dose| == 0)
    ensures axis == "rad" ==> (r.Err? <==> |dose| <= TvsDetectors)
    ensures r.Ok? ==> r.value.meta == meta && 0 < |r.value.x| == |r.value.y|
    ensures r.Ok? && axis == "tvs" ==>
      && |r.value.y| == (if |dose| < TvsDetectors then |dose| else TvsDetectors)
      && forall i :: 0 <= i < |r.value.y| ==> r.value.x[i] == -112 + DetectorPitch * i && r.value.y[i] == dose[i]
    ensures r.Ok? && axis == "rad" ==>
      && |r.value.y| == (if |dose| - TvsDetectors < RadDetectors then |dose| - TvsDetectors else RadDetectors)
      && forall i :: 0 <= i < |r.value.y| ==>
        r.value.x[i] == -164 + DetectorPitch * i && r.value.y[i] == dose[TvsDetectors + i]
  {
    var (tvs, rad) := AxisPairs(dose);
    if axis == "tvs" then Tuples(tvs, meta)
    else if axis == "rad" then Tuples(rad, meta)
    else Err(TypeError)
  }

  /**
   * `snc_profiler(file, axis)` over the file's lines: the metadata from the
   * munge, the readings from the row scan, dose = counts * dose per count *
   * calibration, and the profile of the requested axis.
   */
  function SncProfiler(lines: seq<string>, axis: string): (r: Result<Profile, ImportError>)
    ensures axis != "tvs" && axis != "rad" ==> r.Err?
    ensures r.Ok? ==> r.value.meta == MungeMeta(lines)
    ensures var rd := ReadRows(lines, Readings(None, None, None));
      && (rd.Err? ==> r == Err(rd.error))
      && (rd.Ok? && Dose(rd.value).Err? ==> r == Err(Dose(rd.value).error))
      && (rd.Ok? && Dose(rd.value).Ok? ==> r == AxisProfile(Dose(rd.value).value, axis, MungeMeta(lines)))
  {
    var meta := MungeMeta(lines);
    match ReadRows(lines, Readings(None, None, None))
    case Err(e) => Err(e)
    case Ok(st) =>
      match Dose(st)
      case Err(e) => Err(e)
      case Ok(dose) => AxisProfile(dose, axis, meta)
  }
}

=== FILE: profile_to.dfy ===
/**
 * Writing an SNC Profiler `.prs` file: the metadata header with its
 * defaults, the detector label row, the bias and calibration rows, and the
 * `Data:` row of counts sampled at the detector positions.
 */
module ProfileTo {
  import opened Results
  import opened PyText
  import opened Profiles
  import opened ProfileFrom

  /** Why the writer fails: a required field is absent, its pattern does not match, or a timestamp does not unpack. */
  datatype ExportError =
    | MissingField(key: string)  // an absent key: `re.search` of `None` (TypeError), `None.split()` (AttributeError)
    | NoMatch(key: string)       // a pattern that does not match: `.groups()` of `None` (AttributeError)
    | UnpackError(key: string)   // a stamp of other than two words unpacked into two names (ValueError)
    | NoProfile(key: string)     // a profile argument left at its default: `None.interp` (AttributeError)

  /**
   * The regular-expression extractions the writer applies to metadata values,
   * as oracles; `None` is a value the pattern does not match.
   */
  datatype Extractors = Extractors(
    jaws: string -> Option<(string, string, string, string)>,
    depth: string -> Option<string>,
    rate: string -> Option<string>,
    wedge: string -> Option<(string, string)>)

  // ---------------------------------------------------------------------
  // Metadata resolution
  // ---------------------------------------------------------------------

  /** `meta.get(key) or fallback`: the value when present and non-empty, the fallback otherwise. */
  function OrDefault(meta: map<string, string>, key: string, fallback: string): (v: string)
    ensures key in meta && meta[key] != [] ==> v == meta[key]
    ensures key !in meta || meta[key] == [] ==> v == fallback
    ensures v in {fallback} + (if key in meta then {meta[key]} else {})
  {
    if key in meta && meta[key] != [] then meta[key] else fallback
  }

  /** `s or fallback` for a string already in hand. */
  function OrElse(s: string, fallback: string): string {
    if s != [] then s else fallback
  }

  /** `re.search(pattern, meta.get(key))`: absent key fails first, then a value the pattern misses. */
  function Extract<T>(meta: map<string, string>, key: string, f: string -> Option<T>): (r: Result<T, ExportError>)
    ensures key !in meta ==> r == Err(MissingField(key))
    ensures key in meta && f(meta[key]).None? ==> r == Err(NoMatch(key))
    ensures key in meta && f(meta[key]).Some? ==> r == Ok(f(meta[key]).value)
  {
    if key !in meta then Err(MissingField(key))
    else match f(meta[key])
      case None => Err(NoMatch(key))
      case Some(t) => Ok(t)
  }

  /**
   * The time stamp's date and time: the stamp is split into words, a blank
   * stamp falls back to the first second of 1970, and the words are unpacked
   * into two names. An absent stamp fails, as does any word count but two.
   */
  function TimeStamp(meta: map<string, string>): (r: Result<(string, string), ExportError>)
    ensures "TimeStamp" !in meta ==> r == Err(MissingField("TimeStamp"))
    ensures "TimeStamp" in meta && Words(meta["TimeStamp"]) == [] ==> r == Ok(("01/01/1970", "00:00:01"))
    ensures "TimeStamp" in meta && |Words(meta["TimeStamp"])| == 2 ==>
      r == Ok((Words(meta["TimeStamp"])[0], Words(meta["TimeStamp"])[1]))
    ensures "TimeStamp" in meta && |Words(meta["TimeStamp"])| !in {0, 2} ==> r == Err(UnpackError("TimeStamp"))
    ensures r.Ok? ==> "TimeStamp" in meta && |Words(meta["TimeStamp"])| in {0, 2}
  {
    if "TimeStamp" !in meta then Err(MissingField("TimeStamp"))
    else
      var ws := Words(meta["TimeStamp"]);
      if |ws| == 0 then Ok(("01/01/1970", "00:00:01"))
      else if |ws| == 2 then Ok((ws[0], ws[1]))
      else Err(UnpackError("TimeStamp"))
  }

  /** Every value the header is written from, after defaults. */
  datatype Settings = Settings(
    date: string, time: string, description: string, institution: string,
    calibrationFile: string, collectorModel: string, collectorSerial: string,
    revision: string, firmware: string, software: string, depth: string,
    nominalGain: string, orientation: string, ssd: string, beamMode: string,
    trayMount: string, alignment: string, interval: string, room: string,
    machineType: string, machineModel: string, machineNumber: string,
    beamType: string, energy: string, jaws: (string, string, string, string),
    wedgeType: string, wedgeAngle: string, rate: string, dose: string,
    gantry: string, collimatorAngle: string, backgroundUsed: string,
    pulseMode: string, analyzePanels: string, calSerial: string,
    calRevision: string, temperature: string, dosePerCount: string,
    absoluteCalibration: string, calDate: string, calTime: string,
    updates: string, totalPulses: string, concatenation: string,
    multiFrame: string, spacing: string)

  /** The keys without a usable default, in the order the writer reads them. */
  const RequiredKeys: seq<string> := ["Collimator", "Buildup", "Rate", "Wedge", "TimeStamp"]

  /**
   * The header values: required fields extracted in source order (the first
   * failure is the error), every other field the metadata value or its default.
   */
  function ResolveSettings(meta: map<string, string>, ex: Extractors): (r: Result<Settings, ExportError>)
    ensures "Collimator" !in meta ==> r == Err(MissingField("Collimator"))
    ensures "Collimator" in meta && ex.jaws(meta["Collimator"]).None? ==> r == Err(NoMatch("Collimator"))
    ensures var c, b := Extract(meta, "Collimator", ex.jaws), Extract(meta, "Buildup", ex.depth);
      c.Ok? && b.Err? ==> r == Err(b.error)
    ensures var c, b, t := Extract(meta, "Collimator", ex.jaws), Extract(meta, "Buildup", ex.depth),
        Extract(meta, "Rate", ex.rate);
      c.Ok? && b.Ok? && t.Err? ==> r == Err(t.error)
    ensures var c, b, t, w := Extract(meta, "Collimator", ex.jaws), Extract(meta, "Buildup", ex.depth),
        Extract(meta, "Rate", ex.rate), Extract(meta, "Wedge", ex.wedge);
      c.Ok? && b.Ok? && t.Ok? && w.Err? ==> r == Err(w.error)
    ensures var c, b, t, w := Extract(meta, "Collimator", ex.jaws), Extract(meta, "Buildup", ex.depth),
        Extract(meta, "Rate", ex.rate), Extract(meta, "Wedge", ex.wedge);
      c.Ok? && b.Ok? && t.Ok? && w.Ok? && TimeStamp(meta).Err? ==> r == Err(TimeStamp(meta).error)
    ensures var c, b, t, w := Extract(meta, "Collimator", ex.jaws), Extract(meta, "Buildup", ex.depth),
        Extract(meta, "Rate", ex.rate), Extract(meta, "Wedge", ex.wedge);
      r.Ok? <==> c.Ok? && b.Ok? && t.Ok? && w.Ok? && TimeStamp(meta).Ok?
    ensures var c, b, t, w := Extract(meta, "Collimator", ex.jaws), Extract(meta, "Buildup", ex.depth),
        Extract(meta, "Rate", ex.rate), Extract(meta, "Wedge", ex.wedge);
      r.Ok? ==> r.value == Fill(meta, c.value, b.value, t.value, w.value, TimeStamp(meta).value)
    ensures r.Ok? ==> "Collimator" in meta && "Buildup" in meta && "Rate" in meta && "Wedge" in meta && "TimeStamp" in meta
    ensures r.Err? ==> r.error.key in RequiredKeys
  {
    var c := Extract(meta, "Collimator", ex.jaws);
    var b := Extract(meta, "Buildup", ex.depth);
    var t := Extract(meta, "Rate", ex.rate);
    var w := Extract(meta, "Wedge", ex.wedge);
    if c.Err? then Err(c.error)
    else if b.Err? then Err(b.error)
    else if t.Err? then Err(t.error)
    else if w.Err? then Err(w.error)
    else if TimeStamp(meta).Err? then Err(TimeStamp(meta).error)
    else Ok(Fill(meta, c.value, b.value, t.value, w.value, TimeStamp(meta).value))
  }

  /**
   * The header values once the required fields are in hand. Every `or` with a
   * non-empty default yields a non-empty value, and a metadata value that is
   * present and non-empty is written as it is.
   */
  function Fill(meta: map<string, string>, jaws: (string, string, string, string), depth: string,
                rate: string, wedge: (string, string), stamp: (string, string)): (s: Settings)
    ensures s.jaws == jaws && (s.wedgeType, s.wedgeAngle) == wedge && (s.calDate, s.calTime) == stamp
    ensures s.depth != [] && (depth != [] ==> s.depth == depth)
    ensures s.rate != [] && (rate != [] ==> s.rate == rate)
    ensures s.date != [] && s.time != [] && s.collectorModel != [] && s.dosePerCount != [] && s.spacing != []
    ensures "Dose Per Count" in meta && meta["Dose Per Count"] != [] ==> s.dosePerCount == meta["Dose Per Count"]
    ensures "Description" in meta ==> s.description == meta["Description"]
  {
    Settings(
      date := OrDefault(meta, "Date", "01/01/1970"),
      time := OrDefault(meta, "Time", "00:00:01"),
      description := OrDefault(meta, "Description", ""),
      institution := OrDefault(meta, "Institution", ""),
      calibrationFile := OrDefault(meta, "Calibration File", "NONE"),
      collectorModel := OrDefault(meta, "Collector Model", "Profiler2"),
      collectorSerial := OrDefault(meta, "Collector Serial", "0000000"),
      revision := OrDefault(meta, "Revision", "C"),
      firmware := OrDefault(meta, "Firmware Version", "0.0.0"),
      software := OrDefault(meta, "Software Version", "0.0.0.0"),
      depth := OrElse(depth, "0"),
      nominalGain := OrDefault(meta, "Nominal Gain", "1"),
      orientation := OrDefault(meta, "Orientation", "Sagittal"),
      ssd := OrDefault(meta, "SSD", "100cm"),
      beamMode := OrDefault(meta, "Beam Mode", "Pulsed"),
      trayMount := OrDefault(meta, "Tray Mount", "No"),
      alignment := OrDefault(meta, "Alignment", "None"),
      interval := OrDefault(meta, "Collection Interval", "50"),
      room := OrDefault(meta, "Room", ""),
      machineType := OrDefault(meta, "Machine Type", ""),
      machineModel := OrDefault(meta, "Machine Model", ""),
      machineNumber := OrDefault(meta, "Machine Number", ""),
      beamType := OrDefault(meta, "Beam Type", "Photon"),
      energy := OrDefault(meta, "Energy", "0"),
      jaws := jaws,
      wedgeType := wedge.0,
      wedgeAngle := wedge.1,
      rate := OrElse(rate, "0"),
      dose := OrDefault(meta, "Dose", "0"),
      gantry := OrDefault(meta, "Gantry Angle", "180"),
      collimatorAngle := OrDefault(meta, "Collimator Angle", "0 deg"),
      backgroundUsed := OrDefault(meta, "Background Used", "true"),
      pulseMode := OrDefault(meta, "Pulse Mode", "true"),
      analyzePanels := OrDefault(meta, "Analyze Panels", "1015679"),
      calSerial := OrDefault(meta, "Cal-Serial Number", "0000000"),
      calRevision := OrDefault(meta, "Cal-Revision", "A"),
      temperature := OrDefault(meta, "Temperature", "-100"),
      dosePerCount := OrDefault(meta, "Dose Per Count", "0.001"),
      absoluteCalibration := OrDefault(meta, "Absolute Calibration", "false"),
      calDate := stamp.0,
      calTime := stamp.1,
      updates := OrDefault(meta, "# updates", "0"),
      totalPulses := OrDefault(meta, "Total Pulses", "0"),
      concatenation := OrDefault(meta, "Concatenation", "false"),
      multiFrame := OrDefault(meta, "Multi Frame", "false"),
      spacing := OrDefault(meta, "Detector Spacing", "0.4"))
  }

  /**
   * Once the required fields resolve, the header carries the extracted jaws,
   * the time stamp's two words (or its default), and for optional fields the
   * metadata value when present and non-empty and the writer's default otherwise.
   */
  lemma ResolvedFields(meta: map<string, string>, ex: Extractors)
    requires ResolveSettings(meta, ex).Ok?
    ensures var s := ResolveSettings(meta, ex).value;
      && s.jaws == ex.jaws(meta["Collimator"]).value
      && (s.calDate, s.calTime) == TimeStamp(meta).value
      && s.dosePerCount == OrDefault(meta, "Dose Per Count", "0.001")
      && s.collectorModel == OrDefault(meta, "Collector Model", "Profiler2")
      && s.date == OrDefault(meta, "Date", "01/01/1970")
      && s.spacing == OrDefault(meta, "Detector Spacing", "0.4")
  {
  }

  // ---------------------------------------------------------------------
  // Header lines
  // ---------------------------------------------------------------------

  /** The header up to the dose calibration heading, block by block as the file lays it out. */
  function SetupLines(s: Settings): (ls: seq<string>)
    ensures |ls| == 42
  {
    FileLines(s) + ProfilerSetupLines(s) + MachineLines(s) + FlagLines(s) + HardwareLines(s)
  }

  /** Version, file name, date, description, institution, calibration file. */
  function FileLines(s: Settings): (ls: seq<string>)
    ensures |ls| == 6
  {
    [ "Version:\t " + "7\n",
      "Filename:\t " + "- \n",
      "Date:\t " + (s.date + "\t Time:\t" + s.time + "\n"),
      "Description:\t" + (s.description + "\n"),
      "Institution:\t" + (s.institution + "\n"),
      CalibrationTag + " File:\t" + (s.calibrationFile + "\n") ]
  }

  /** The `Profiler Setup` block: the device, then how it was set up. */
  function ProfilerSetupLines(s: Settings): (ls: seq<string>)
    ensures |ls| == 14
  {
    DeviceLines(s) + PlacementLines(s) + ModeLines(s)
  }

  function DeviceLines(s: Settings): (ls: seq<string>)
    ensures |ls| == 6
  {
    [ "\tProfiler Setup\n" + "",
      "\n" + "",
      "Collector Model:\t" + (s.collectorModel + "\n"),
      "Collector Serial:\t" + (s.collectorSerial + " Revision:\t" + s.revision + "\n"),
      "Firmware Version:\t" + (s.firmware + "\n"),
      "Software Version:\t" + (s.software + "\n") ]
  }

  function PlacementLines(s: Settings): (ls: seq<string>)
    ensures |ls| == 4
  {
    [ "Buildup:\t" + (s.depth + "\tcm\tWaterEquiv\n"),
      "Nominal Gain\t" + (s.nominalGain + "\n"),
      "Orientation:\t" + (s.orientation + "\n"),
      "SSD:\t" + (s.ssd + "\tcm\n") ]
  }

  function ModeLines(s: Settings): (ls: seq<string>)
    ensures |ls| == 4
  {
    [ "Beam Mode:\t" + (s.beamMode + "\n"),
      "Tray Mount:\t" + (s.trayMount + "\n"),
      "Alignment:\t" + (s.alignment + "\n"),
      "Collection Interval:\t" + (s.interval + "\n") ]
  }

  /** The `Machine Data` block: which machine, then the beam. */
  function MachineLines(s: Settings): (ls: seq<string>)
    ensures |ls| == 11
  {
    MachineIdLines(s) + BeamLines(s)
  }

  function MachineIdLines(s: Settings): (ls: seq<string>)
    ensures |ls| == 6
  {
    [ "\n" + "",
      "\tMachine Data\n" + "",
      "Room:\t" + (s.room + "\n"),
      "Machine Type:\t" + (s.machineType + "\n"),
      "Machine Model:\t" + (s.machineModel + "\n"),
      "Machine Serial Number:\t" + (s.machineNumber + "\n") ]
  }

  function BeamLines(s: Settings): (ls: seq<string>)
    ensures |ls| == 5
  {
    [ "Beam Type:\t" + (s.beamType + "\tEnergy:\t" + s.energy + " MeV\n"),
      "Collimator:\tLeft: " + (s.jaws.0 + " Right: " + s.jaws.1 + " Top: " + s.jaws.2 + " Bottom: " + s.jaws.3 + " cm\n"),
      "Wedge:\t" + (s.wedgeType + "\tat\t" + s.wedgeAngle + "\n"),
      "Rate:\t" + (s.rate + "\tmu/Min\tDose:\t" + s.dose + "\n"),
      "Gantry Angle:\t" + (s.gantry + " deg\tCollimator Angle:\t" + s.collimatorAngle + " deg\n") ]
  }

  /** The `Data Flags` block. */
  function FlagLines(s: Settings): (ls: seq<string>)
    ensures |ls| == 5
  {
    [ "\n" + "",
      "\tData Flags\n" + "",
      "Background Used:\t" + (s.backgroundUsed + "\n"),
      "Pulse Mode:\t" + (s.pulseMode + "\n"),
      "Analyze Panels:\t" + (s.analyzePanels + "\n") ]
  }

  /** The `Hardware Data` block, ending with the dose calibration heading. */
  function HardwareLines(s: Settings): (ls: seq<string>)
    ensures |ls| == 6
  {
    [ "\n" + "",
      "\tHardware Data\n" + "",
      "Cal-Serial Number:\t" + (s.calSerial + "\n"),
      "Cal-Revision:\t" + (s.calRevision + "\n"),
      "Temperature:\t" + (s.temperature + "\n"),
      "Dose Calibration\n" + "" ]
  }

  /** The one line the reader takes the dose per count from. */
  function DosePerCountLine(s: Settings): string {
    DosePerCountTag + "\t" + (s.dosePerCount + "\n")
  }

  /** The header after the dose per count, down to the concatenation flag. */
  function TrailerLines(s: Settings): (ls: seq<string>)
    ensures |ls| == 17
  {
    CalibrationLines(s) + CollectionLines(s)
  }

  /** The rest of the dose calibration: dose, flag, energy, time stamp, comments, gain ratios. */
  function CalibrationLines(s: Settings): (ls: seq<string>)
    ensures |ls| == 9
  {
    CalibrationRecordLines(s) + GainLines()
  }

  function CalibrationRecordLines(s: Settings): (ls: seq<string>)
    ensures |ls| == 5
  {
    [ "Dose:\t" + "100.0\n",
      "Absolute Calibration:\t" + (s.absoluteCalibration + "\n"),
      "Energy:\t" + "0 MV\n",
      "TimeStamp:\t" + (s.calDate + " " + s.calTime + "\n"),
      "Comments:\t" + "\n" ]
  }

  /** Gain ratios 1, 2, 4, 8 for each of the four amplifiers. */
  function GainLines(): (ls: seq<string>)
    ensures |ls| == 4
  {
    [ "Gain Ratios for Amp0:\t\t" + "1\t2\t4\t8\n",
      "Gain Ratios for Amp1:\t\t" + "1\t2\t4\t8\n",
      "Gain Ratios for Amp2:\t\t" + "1\t2\t4\t8\n",
      "Gain Ratios for Amp3:\t\t" + "1\t2\t4\t8\n" ]
  }

  /** Collection totals and the detector geometry. */
  function CollectionLines(s: Settings): (ls: seq<string>)
    ensures |ls| == 8
  {
    TotalsLines(s) + GeometryLines(s)
  }

  function TotalsLines(s: Settings): (ls: seq<string>)
    ensures |ls| == 5
  {
    [ "\n" + "",
      "Multi Frame:\t" + (s.multiFrame + "\n"),
      "# updates:\t" + (s.updates + "\n"),
      "Total Pulses:\t" + (s.totalPulses + "\n"),
      "Total Time:\t" + "0.0\n" ]
  }

  /** Detector counts 83, 57, 0, 4, the spacing, and the concatenation flag. */
  function GeometryLines(s: Settings): (ls: seq<string>)
    ensures |ls| == 3
  {
    [ "Detectors:\t" + "83\t57\t0\t4\n",
      "Detector Spacing:\t" + (s.spacing + "\n"),
      "Concatenation:\t" + (s.concatenation + "\n") ]
  }

  // ---------------------------------------------------------------------
  // Detector rows
  // ---------------------------------------------------------------------

  /** Python's `int(r)`: truncation toward zero. */
  function Truncate(r: real): (n: int)
    ensures 0.0 <= r ==> 0 <= n && n as real <= r < n as real + 1.0
    ensures r < 0.0 ==> n <= 0 && n as real - 1.0 < r <= n as real
  {
    if r >= 0.0 then r.Floor else -((-r).Floor)
  }

  /** One detector reading: `int(1000 * value)`, 1000 counts per unit of dose. */
  function Count(v: real): (c: int)
    ensures 0.0 <= v ==> 0 <= c && c as real <= 1000.0 * v < c as real + 1.0
    ensures v < 0.0 ==> c <= 0 && c as real - 1.0 < 1000.0 * v <= c as real
  {
    Truncate(1000.0 * v)
  }

  function CountTexts(values: seq<real>): (ts: seq<string>)
    ensures |ts| == |values|
    ensures forall i :: 0 <= i < |ts| ==> ts[i] == IntToString(Count(values[i]))
  {
    seq(|values|, i requires 0 <= i < |values| => IntToString(Count(values[i])))
  }

  /** The `Data:` row's fields: tag, four zeros, one count per detector, four zeros. */
  function DataFields(values: seq<real>): (fs: seq<string>)
    ensures |fs| == 9 + |values|
    ensures fs[0] == DataTag
    ensures forall i :: 1 <= i < 5 ==> fs[i] == "0"
    ensures fs[5..5 + |values|] == CountTexts(values)
    ensures forall i :: 5 + |values| <= i < |fs| ==> fs[i] == "0"
  {
    [DataTag, "0", "0", "0", "0"] + CountTexts(values) + ["0", "0", "0", "0"]
  }

  /** Transverse detector labels X1..X57. */
  function XLabels(): (ls: seq<string>)
    ensures |ls| == TvsDetectors
    ensures forall i :: 0 <= i < |ls| ==> ls[i] == "X" + IntToString(i + 1)
  {
    seq(TvsDetectors, i => "X" + IntToString(i + 1))
  }

  /** Radial detector labels Y1..Y83. */
  function YLabels(): (ls: seq<string>)
    ensures |ls| == RadDetectors
    ensures forall i :: 0 <= i < |ls| ==> ls[i] == "Y" + IntToString(i + 1)
  {
    seq(RadDetectors, i => "Y" + IntToString(i + 1))
  }

  /** The detector label fields: five column names, X1..X57, Y1..Y83, Z0..Z3. */
  function TypeFields(): (fs: seq<string>)
    ensures |fs| == 5 + TvsDetectors + RadDetectors + 4
    ensures fs[0] == "TYPE"
    ensures fs[1..5] == ["UPDATE#", "TIMETIC", "PULSES", "ERRORS"]
    ensures fs[5..5 + TvsDetectors] == XLabels()
    ensures fs[5 + TvsDetectors..5 + TvsDetectors + RadDetectors] == YLabels()
    ensures fs[5 + TvsDetectors + RadDetectors..] == ["Z0", "Z1", "Z2", "Z3"]
  {
    ["TYPE", "UPDATE#", "TIMETIC", "PULSES", "ERRORS"] + XLabels() + YLabels() + ["Z0", "Z1", "Z2", "Z3"]
  }

  /** The bias row's fields: tag, four fields, a zero bias per detector and four more. */
  function BiasFields(): (fs: seq<string>)
    ensures |fs| == 5 + TvsDetectors + RadDetectors + 4
    ensures fs[0] == "BIAS1"
  {
    ["BIAS1", "", "0", "", ""] + Repeat("0.0", 144)
  }

  /** The calibration row's fields: tag, four empty fields, a factor of 1.0 per detector. */
  function CalibrationFields(): (fs: seq<string>)
    ensures |fs| == 5 + TvsDetectors + RadDetectors
  {
    [CalibrationTag, "", "", "", ""] + Repeat("1.0", TvsDetectors + RadDetectors)
  }

  /**
   * The whole file as the list of lines `snc_profiler` writes, each row as
   * `'\t'.join` of its fields whose last field carries the line break.
   */
  function ProfilerLines(s: Settings, values: seq<real>): (lines: seq<string>)
    ensures |lines| == 64
    ensures lines[63] == TabRow(DataFields(values))
  {
    var header := SetupLines(s) + [DosePerCountLine(s)] + TrailerLines(s);
    assert |header| == 60;
    header + DetectorRows(values)
  }

  /** The four detector rows: labels, bias, calibration factors, counts. */
  function DetectorRows(values: seq<real>): (rows: seq<string>)
    ensures |rows| == 4
    ensures rows[3] == TabRow(DataFields(values))
  {
    LabelRows() + ReadingRows(values)
  }

  /** The label and bias rows. */
  function LabelRows(): (rows: seq<string>)
    ensures |rows| == 2
  {
    [TabRow(TypeFields()), TabRow(BiasFields())]
  }

  /** The calibration factors and the counts. */
  function ReadingRows(values: seq<real>): (rows: seq<string>)
    ensures |rows| == 2
    ensures rows[1] == TabRow(DataFields(values))
  {
    [TabRow(CalibrationFields()), TabRow(DataFields(values))]
  }

  /** Detector positions the writer samples at: `arange(-11.2, 11.6, 0.4)` and `arange(-16.4, 16.8, 0.4)` in mm. */
  function TvsSamplePositions(): seq<int> {
    Arange(-112, 116, DetectorPitch)
  }

  function RadSamplePositions(): seq<int> {
    Arange(-164, 168, DetectorPitch)
  }

  /**
   * `snc_profiler(tvs_profile, rad_profile, meta=meta)` without the file
   * write: resolve the header, sample both profiles at the detector positions
   * and lay out the lines. Either profile may be left at its default `None`,
   * which fails only once the header has resolved, the transverse one first.
   */
  function SncProfiler(tvs: Option<Profile>, rad: Option<Profile>, ops: ProfileOps, ex: Extractors,
                       meta: map<string, string>): (r: Result<seq<string>, ExportError>)
    ensures ResolveSettings(meta, ex).Err? ==> r == Err(ResolveSettings(meta, ex).error)
    ensures ResolveSettings(meta, ex).Ok? && tvs.None? ==> r == Err(NoProfile("tvs_profile"))
    ensures ResolveSettings(meta, ex).Ok? && tvs.Some? && rad.None? ==> r == Err(NoProfile("rad_profile"))
    ensures r.Ok? <==> ResolveSettings(meta, ex).Ok? && tvs.Some? && rad.Some?
    ensures r.Ok? ==> |r.value| == 64
    ensures r.Ok? ==> (r.value[63] ==
      TabRow(DataFields(ops.interp(tvs.value, TvsSamplePositions()) + ops.interp(rad.value, RadSamplePositions()))))
  {
    match ResolveSettings(meta, ex)
    case Err(e) => Err(e)
    case Ok(s) =>
      if tvs.None? then Err(NoProfile("tvs_profile"))
      else if rad.None? then Err(NoProfile("rad_profile"))
      else
        var values := ops.interp(tvs.value, TvsSamplePositions()) + ops.interp(rad.value, RadSamplePositions());
        Ok(ProfilerLines(s, values))
  }

  // ---------------------------------------------------------------------
  // The output file name
  // ---------------------------------------------------------------------

  /**
   * The name the writer passes to `open`, as written: the `file_name`
   * argument itself, whose default is `None`. `None` here is the TypeError
   * `open(None, 'w')` raises.
   */
  function OpenTarget(fileName: Option<string>): (r: Option<string>)
    ensures r.Some? <==> fileName.Some?
    ensures r.Some? ==> r.value == fileName.value
  {
    fileName
  }

  /** `file_name or meta.get('Filename') or 'NONE'`: the name the writer computes and never uses. */
  function TargetName(fileName: Option<string>, meta: map<string, string>): (n: string)
    ensures n != []
    ensures fileName.Some? && fileName.value != [] ==> n == fileName.value
    ensures (fileName.None? || fileName.value == []) && "Filename" in meta && meta["Filename"] != [] ==>
      n == meta["Filename"]
    ensures (fileName.None? || fileName.value == []) && ("Filename" !in meta || meta["Filename"] == []) ==>
      n == "NONE"
  {
    if fileName.Some? && fileName.value != [] then fileName.value
    else OrDefault(meta, "Filename", "NONE")
  }

  /** Called with its default `file_name`, the writer cannot open a file, though it has computed a name. */
  lemma OmittedFileNameFails(meta: map<string, string>)
    ensures OpenTarget(None).None?
    ensures TargetName(None, meta) != []
  {
  }

  /** Where the writer as written opens a file with a non-empty name, the computed name is the same. */
  lemma TargetNameAgrees(fileName: Option<string>, meta: map<string, string>)
    ensures OpenTarget(fileName).Some? && OpenTarget(fileName).value != [] ==>
      TargetName(fileName, meta) == OpenTarget(fileName).value
  {
  }

  // ---------------------------------------------------------------------
  // Layout properties
  // ---------------------------------------------------------------------

  /** The writer's transverse sample positions are exactly the reader's detector positions. */
  lemma TvsPositionsAgree()
    ensures TvsSamplePositions() == TvsPositions()
  {
    var t := TvsSamplePositions();
    assert t[|t| - 1] == -112 + DetectorPitch * (|t| - 1);
    assert |t| == TvsDetectors;
  }

  /** The writer's radial sample positions are exactly the reader's detector positions. */
  lemma RadPositionsAgree()
    ensures RadSamplePositions() == RadPositions()
  {
    var r := RadSamplePositions();
    assert r[|r| - 1] == -164 + DetectorPitch * (|r| - 1);
    assert |r| == RadDetectors;
  }

  /** The writer's sample positions are exactly the reader's detector positions. */
  lemma DetectorPositionsAgree()
    ensures TvsSamplePositions() == TvsPositions()
    ensures RadSamplePositions() == RadPositions()
  {
    TvsPositionsAgree();
    RadPositionsAgree();
  }

  /** The label row and a full data row have the same number of fields, 149. */
  lemma TypeRowMatchesDataRow(values: seq<real>)
    requires |values| == TvsDetectors + RadDetectors
    ensures |TypeFields()| == |DataFields(values)| == 149
    ensures |BiasFields()| == 149
  {
  }

  /**
   * Reading the data row back with `split()` gives every field; fields 5..144
   * are the counts written, transverse first and radial after.
   */
  lemma DataRowReadsBack(values: seq<real>)
    requires |values| == TvsDetectors + RadDetectors
    ensures Words(TabRow(DataFields(values))) == DataFields(values)
    ensures Slice(Words(TabRow(DataFields(values))), 5, 145) == CountTexts(values)
    ensures ParseAll(Slice(Words(TabRow(DataFields(values))), 5, 145)) ==
      Some(seq(|values|, i requires 0 <= i < |values| => Count(values[i]) as real))
  {
    var fs := DataFields(values);
    assert AllNoSpace(fs) by {
      forall i | 0 <= i < |fs|
        ensures NoSpace(fs[i])
      {
        if 5 <= i < 5 + |values| {
          assert fs[i] == fs[5..5 + |values|][i - 5];
        }
      }
    }
    WordsOfTabRow(fs);
    assert forall i :: 0 <= i < |fs| ==> fs[i] != [] by {
      forall i | 0 <= i < |fs|
        ensures fs[i] != []
      {
        if 5 <= i < 5 + |values| {
          assert fs[i] == fs[5..5 + |values|][i - 5];
        }
      }
    }
    NonEmptyKeepsFull(fs);
    var counts := seq(|values|, i requires 0 <= i < |values| => Count(values[i]) as real);
    forall i | 0 <= i < |values|
      ensures ParseReal(CountTexts(values)[i]) == Some(counts[i])
    {
      IntToStringParses(Count(values[i]));
    }
    ParseAllSucceeds(CountTexts(values), counts);
  }
}

=== FILE: profiles.dfy ===
/**
 * The profile value every operation consumes or produces, the Profile class
 * operations that live outside this model (interpolation, increment,
 * alignment), and numpy's `arange`, `min` and `max` on integer millimetres.
 */
module Profiles {

  /**
   * A one-dimensional profile: positions in whole millimetres, the value
   * measured at each, and free-form metadata. The Profile class that
   * validates these is not part of this model, so nothing is assumed of them.
   */
  datatype Profile = Profile(x: seq<int>, y: seq<real>, meta: map<string, string>)

  /**
   * The Profile class methods the modelled code calls, as uninterpreted
   * operations: `get_y(x)`, `get_increment()`, `align_to(reference)` and
   * `interp(positions)`.
   */
  datatype ProfileOps = ProfileOps(
    getY: (Profile, int) -> real,
    increment: Profile -> int,
    alignTo: (Profile, Profile) -> Profile,
    interp: (Profile, seq<int>) -> seq<real>)

  /**
   * `numpy.arange(start, stop, step)` on integers: `start`, `start + step`, ...
   * up to but excluding `stop`, walking down when the step is negative.
   * A zero step is a ZeroDivisionError in numpy; callers report it.
   */
  function Arange(start: int, stop: int, step: int): (r: seq<int>)
    requires step != 0
    ensures forall i :: 0 <= i < |r| ==> r[i] == start + i * step
    ensures step > 0 ==> (forall i :: 0 <= i < |r| ==> r[i] < stop) && start + |r| * step >= stop
    ensures step < 0 ==> (forall i :: 0 <= i < |r| ==> r[i] > stop) && start + |r| * step <= stop
    decreases if step > 0 then stop - start else start - stop
  {
    if (step > 0 && start < stop) || (step < 0 && start > stop) then
      var rest := Arange(start + step, stop, step);
      assert forall i :: 1 <= i <= |rest| ==> start + step + (i - 1) * step == start + i * step by {
        forall i | 1 <= i <= |rest| {
          StepShift(i, step);
        }
      }
      assert start + step + |rest| * step == start + (|rest| + 1) * step by {
        StepShift(|rest| + 1, step);
      }
      [start] + rest
    else []
  }

  lemma StepShift(i: int, step: int)
    ensures (i - 1) * step == i * step - step
  {
  }

  /** Consecutive `arange` points are one step apart. */
  lemma ArangeSpacing(start: int, stop: int, step: int)
    requires step != 0
    ensures var r := Arange(start, stop, step);
      forall i :: 0 <= i < |r| - 1 ==> r[i + 1] - r[i] == step
  {
    var r := Arange(start, stop, step);
    forall i | 0 <= i < |r| - 1
      ensures r[i + 1] - r[i] == step
    {
      calc {
        r[i + 1] - r[i];
        (start + (i + 1) * step) - (start + i * step);
        step;
      }
    }
  }

  /** `min(s)`; numpy raises ValueError on an empty array, so callers check first. */
  function SeqMin(s: seq<int>): (m: int)
    requires |s| > 0
    ensures m in s
    ensures forall i :: 0 <= i < |s| ==> m <= s[i]
  {
    if |s| == 1 then s[0]
    else
      var rest := SeqMin(s[1..]);
      assert forall i :: 1 <= i < |s| ==> s[i] == s[1..][i - 1];
      if s[0] <= rest then s[0] else rest
  }

  /** `max(s)`. */
  function SeqMax(s: seq<int>): (m: int)
    requires |s| > 0
    ensures m in s
    ensures forall i :: 0 <= i < |s| ==> s[i] <= m
  {
    if |s| == 1 then s[0]
    else
      var rest := SeqMax(s[1..]);
      assert forall i :: 1 <= i < |s| ==> s[i] == s[1..][i - 1];
      if s[0] >= rest then s[0] else rest
  }
}

=== FILE: results.dfy ===
/** Failure-carrying values used in place of the exceptions the Python code raises. */
module Results {

  datatype Option<+T> = None | Some(value: T)

  /** `Ok` carries the value a call returns, `Err` the exception it would raise. */
  datatype Result<+T, +E> = Ok(value: T) | Err(error: E)
}

=== FILE: snc_round_trip.dfy ===
/**
 * Writing an SNC Profiler file and reading it back. The reader's row scan
 * ignores every header line the writer emits except the dose per count, finds
 * the calibration factors and the counts in the detector rows, and so
 * returns, for either axis, the detector positions with the doses the writer
 * encoded: each sampled value truncated to whole counts, times the dose per
 * count.
 */
module SncRoundTrip {
  import opened Results
  import opened PyText
  import opened Profiles
  import opened ProfileFrom
  import opened ProfileTo

  // ---------------------------------------------------------------------
  // Rows the reader passes over
  // ---------------------------------------------------------------------

  /**
   * A line whose prefix differs from each tag at a position inside both is
   * not a row the reader takes; `kc`, `kd` and `kp` are those positions for
   * the calibration, data and dose-per-count tags.
   */
  lemma OtherByPrefix(p: string, rest: string, kc: nat, kd: nat, kp: nat)
    requires kc < |p| && kc < |CalibrationTag| && p[kc] != CalibrationTag[kc]
    requires kd < |p| && kd < |DataTag| && p[kd] != DataTag[kd]
    requires kp < |p| && kp < |DosePerCountTag| && p[kp] != DosePerCountTag[kp]
    ensures Classify(p + rest) == OtherRow
  {
    var row := p + rest;
    DiffersAt(row, CalibrationTag, kc);
    DiffersAt(row, DataTag, kd);
    DiffersAt(row, DosePerCountTag, kp);
    HeadIsStartsWith(row, CalibrationTag);
    HeadIsStartsWith(row, DataTag);
    HeadIsStartsWith(row, DosePerCountTag);
  }

  /** A line that starts with neither `C` nor `D` is not a row the reader takes. */
  lemma OtherByInitial(p: string, rest: string)
    requires |p| > 0 && p[0] != 'C' && p[0] != 'D'
    ensures Classify(p + rest) == OtherRow
  {
    var row := p + rest;
    DiffersAt(row, CalibrationTag, 0);
    DiffersAt(row, DataTag, 0);
    DiffersAt(row, DosePerCountTag, 0);
    HeadIsStartsWith(row, CalibrationTag);
    HeadIsStartsWith(row, DataTag);
    HeadIsStartsWith(row, DosePerCountTag);
  }

  /** The `Calibration File:` line starts like the calibration row but names a file, so it is passed over. */
  lemma CalibrationFileLine(rest: string)
    ensures Classify(CalibrationTag + " File:\t" + rest) == OtherRow
  {
    var row := CalibrationTag + " File:\t" + rest;
    assert row[12..16] == "File";
    ContainsAt(row, "File", 12);
    DiffersAt(row, DataTag, 0);
    DiffersAt(row, DosePerCountTag, 0);
    HeadIsStartsWith(row, DataTag);
    HeadIsStartsWith(row, DosePerCountTag);
  }

  /** Every row is one the reader passes over. */
  predicate Skipped(rows: seq<string>) {
    forall i :: 0 <= i < |rows| ==> Classify(rows[i]) == OtherRow
  }

  lemma SkippedAppend(a: seq<string>, b: seq<string>)
    requires Skipped(a) && Skipped(b)
    ensures Skipped(a + b)
  {
    assert forall i :: |a| <= i < |a + b| ==> (a + b)[i] == b[i - |a|];
  }

  lemma FileLinesSkipped(s: Settings)
    ensures Skipped(FileLines(s))
  {
    var ls := FileLines(s);
    forall i | 0 <= i < |ls|
      ensures Classify(ls[i]) == OtherRow
    {
      if i == 0 {
        OtherByInitial("Version:\t ", "7\n");
      } else if i == 1 {
        OtherByInitial("Filename:\t ", "- \n");
      } else if i == 2 {
        OtherByPrefix("Date:\t ", s.date + "\t Time:\t" + s.time + "\n", 0, 3, 1);
      } else if i == 3 {
        OtherByPrefix("Description:\t", s.description + "\n", 0, 1, 1);
      } else if i == 4 {
        OtherByInitial("Institution:\t", s.institution + "\n");
      } else {
        CalibrationFileLine(s.calibrationFile + "\n");
      }
    }
  }

  lemma DeviceLinesSkipped(s: Settings)
    ensures Skipped(DeviceLines(s))
  {
    var ls := DeviceLines(s);
    forall i | 0 <= i < |ls|
      ensures Classify(ls[i]) == OtherRow
    {
      if i == 0 {
        OtherByInitial("\tProfiler Setup\n", "");
      } else if i == 1 {
        OtherByInitial("\n", "");
      } else if i == 2 {
        OtherByPrefix("Collector Model:\t", s.collectorModel + "\n", 1, 0, 0);
      } else if i == 3 {
        OtherByPrefix("Collector Serial:\t", s.collectorSerial + " Revision:\t" + s.revision + "\n", 1, 0, 0);
      } else if i == 4 {
        OtherByInitial("Firmware Version:\t", s.firmware + "\n");
      } else {
        OtherByInitial("Software Version:\t", s.software + "\n");
      }
    }
  }

  lemma PlacementLinesSkipped(s: Settings)
    ensures Skipped(PlacementLines(s))
  {
    var ls := PlacementLines(s);
    forall i | 0 <= i < |ls|
      ensures Classify(ls[i]) == OtherRow
    {
      if i == 0 {
        OtherByInitial("Buildup:\t", s.depth + "\tcm\tWaterEquiv\n");
      } else if i == 1 {
        OtherByInitial("Nominal Gain\t", s.nominalGain + "\n");
      } else if i == 2 {
        OtherByInitial("Orientation:\t", s.orientation + "\n");
      } else {
        OtherByInitial("SSD:\t", s.ssd + "\tcm\n");
      }
    }
  }

  lemma ModeLinesSkipped(s: Settings)
    ensures Skipped(ModeLines(s))
  {
    var ls := ModeLines(s);
    forall i | 0 <= i < |ls|
      ensures Classify(ls[i]) == OtherRow
    {
      if i == 0 {
        OtherByInitial("Beam Mode:\t", s.beamMode + "\n");
      } else if i == 1 {
        OtherByInitial("Tray Mount:\t", s.trayMount + "\n");
      } else if i == 2 {
        OtherByInitial("Alignment:\t", s.alignment + "\n");
      } else {
        OtherByPrefix("Collection Interval:\t", s.interval + "\n", 1, 0, 0);
      }
    }
  }

  lemma MachineIdLinesSkipped(s: Settings)
    ensures Skipped(MachineIdLines(s))
  {
    var ls := MachineIdLines(s);
    forall i | 0 <= i < |ls|
      ensures Classify(ls[i]) == OtherRow
    {
      if i == 0 {
        OtherByInitial("\n", "");
      } else if i == 1 {
        OtherByInitial("\tMachine Data\n", "");
      } else if i == 2 {
        OtherByInitial("Room:\t", s.room + "\n");
      } else if i == 3 {
        OtherByInitial("Machine Type:\t", s.machineType + "\n");
      } else if i == 4 {
        OtherByInitial("Machine Model:\t", s.machineModel + "\n");
      } else {
        OtherByInitial("Machine Serial Number:\t", s.machineNumber + "\n");
      }
    }
  }

  lemma BeamLinesSkipped(s: Settings)
    ensures Skipped(BeamLines(s))
  {
    var ls := BeamLines(s);
    forall i | 0 <= i < |ls|
      ensures Classify(ls[i]) == OtherRow
    {
      if i == 0 {
        OtherByInitial("Beam Type:\t", s.beamType + "\tEnergy:\t" + s.energy + " MeV\n");
      } else if i == 1 {
        OtherByPrefix("Collimator:\tLeft: ", s.jaws.0 + " Right: " + s.jaws.1 + " Top: " + s.jaws.2 + " Bottom: " + s.jaws.3 + " cm\n", 1, 0, 0);
      } else if i == 2 {
        OtherByInitial("Wedge:\t", s.wedgeType + "\tat\t" + s.wedgeAngle + "\n");
      } else if i == 3 {
        OtherByInitial("Rate:\t", s.rate + "\tmu/Min\tDose:\t" + s.dose + "\n");
      } else {
        OtherByInitial("Gantry Angle:\t", s.gantry + " deg\tCollimator Angle:\t" + s.collimatorAngle + " deg\n");
      }
    }
  }

  lemma FlagLinesSkipped(s: Settings)
    ensures Skipped(FlagLines(s))
  {
    var ls := FlagLines(s);
    forall i | 0 <= i < |ls|
      ensures Classify(ls[i]) == OtherRow
    {
      if i == 0 {
        OtherByInitial("\n", "");
      } else if i == 1 {
        OtherByInitial("\tData Flags\n", "");
      } else if i == 2 {
        OtherByInitial("Background Used:\t", s.backgroundUsed + "\n");
      } else if i == 3 {
        OtherByInitial("Pulse Mode:\t", s.pulseMode + "\n");
      } else {
        OtherByInitial("Analyze Panels:\t", s.analyzePanels + "\n");
      }
    }
  }

  lemma HardwareLinesSkipped(s: Settings)
    ensures Skipped(HardwareLines(s))
  {
    var ls := HardwareLines(s);
    forall i | 0 <= i < |ls|
      ensures Classify(ls[i]) == OtherRow
    {
      if i == 0 {
        OtherByInitial("\n", "");
      } else if i == 1 {
        OtherByInitial("\tHardware Data\n", "");
      } else if i == 2 {
        OtherByPrefix("Cal-Serial Number:\t", s.calSerial + "\n", 3, 0, 0);
      } else if i == 3 {
        OtherByPrefix("Cal-Revision:\t", s.calRevision + "\n", 3, 0, 0);
      } else if i == 4 {
        OtherByInitial("Temperature:\t", s.temperature + "\n");
      } else {
        OtherByPrefix("Dose Calibration\n", "", 0, 1, 5);
      }
    }
  }

  lemma CalibrationRecordLinesSkipped(s: Settings)
    ensures Skipped(CalibrationRecordLines(s))
  {
    var ls := CalibrationRecordLines(s);
    forall i | 0 <= i < |ls|
      ensures Classify(ls[i]) == OtherRow
    {
      if i == 0 {
        OtherByPrefix("Dose:\t", "100.0\n", 0, 1, 4);
      } else if i == 1 {
        OtherByInitial("Absolute Calibration:\t", s.absoluteCalibration + "\n");
      } else if i == 2 {
        OtherByInitial("Energy:\t", "0 MV\n");
      } else if i == 3 {
        OtherByInitial("TimeStamp:\t", s.calDate + " " + s.calTime + "\n");
      } else {
        OtherByPrefix("Comments:\t", "\n", 1, 0, 0);
      }
    }
  }

  lemma GainLinesSkipped()
    ensures Skipped(GainLines())
  {
    var ls := GainLines();
    forall i | 0 <= i < |ls|
      ensures Classify(ls[i]) == OtherRow
    {
      if i == 0 {
        OtherByInitial("Gain Ratios for Amp0:\t\t", "1\t2\t4\t8\n");
      } else if i == 1 {
        OtherByInitial("Gain Ratios for Amp1:\t\t", "1\t2\t4\t8\n");
      } else if i == 2 {
        OtherByInitial("Gain Ratios for Amp2:\t\t", "1\t2\t4\t8\n");
      } else {
        OtherByInitial("Gain Ratios for Amp3:\t\t", "1\t2\t4\t8\n");
      }
    }
  }

  lemma TotalsLinesSkipped(s: Settings)
    ensures Skipped(TotalsLines(s))
  {
    var ls := TotalsLines(s);
    forall i | 0 <= i < |ls|
      ensures Classify(ls[i]) == OtherRow
    {
      if i == 0 {
        OtherByInitial("\n", "");
      } else if i == 1 {
        OtherByInitial("Multi Frame:\t", s.multiFrame + "\n");
      } else if i == 2 {
        OtherByInitial("# updates:\t", s.updates + "\n");
      } else if i == 3 {
        OtherByInitial("Total Pulses:\t", s.totalPulses + "\n");
      } else {
        OtherByInitial("Total Time:\t", "0.0\n");
      }
    }
  }

  lemma GeometryLinesSkipped(s: Settings)
    ensures Skipped(GeometryLines(s))
  {
    var ls := GeometryLines(s);
    forall i | 0 <= i < |ls|
      ensures Classify(ls[i]) == OtherRow
    {
      if i == 0 {
        OtherByPrefix("Detectors:\t", "83\t57\t0\t4\n", 0, 1, 1);
      } else if i == 1 {
        OtherByPrefix("Detector Spacing:\t", s.spacing + "\n", 0, 1, 1);
      } else {
        OtherByPrefix("Concatenation:\t", s.concatenation + "\n", 1, 0, 0);
      }
    }
  }

  /** The whole header before the dose per count. */
  lemma SetupSkipped(s: Settings)
    ensures Skipped(SetupLines(s))
  {
    FileLinesSkipped(s);
    DeviceLinesSkipped(s);
    PlacementLinesSkipped(s);
    ModeLinesSkipped(s);
    MachineIdLinesSkipped(s);
    BeamLinesSkipped(s);
    FlagLinesSkipped(s);
    HardwareLinesSkipped(s);
    SkippedAppend(DeviceLines(s), PlacementLines(s));
    SkippedAppend(DeviceLines(s) + PlacementLines(s), ModeLines(s));
    SkippedAppend(MachineIdLines(s), BeamLines(s));
    SkippedAppend(FileLines(s), ProfilerSetupLines(s));
    SkippedAppend(FileLines(s) + ProfilerSetupLines(s), MachineLines(s));
    SkippedAppend(FileLines(s) + ProfilerSetupLines(s) + MachineLines(s), FlagLines(s));
    SkippedAppend(FileLines(s) + ProfilerSetupLines(s) + MachineLines(s) + FlagLines(s), HardwareLines(s));
  }

  /** The whole header after the dose per count. */
  lemma TrailerSkipped(s: Settings)
    ensures Skipped(TrailerLines(s))
  {
    CalibrationRecordLinesSkipped(s);
    GainLinesSkipped();
    TotalsLinesSkipped(s);
    GeometryLinesSkipped(s);
    SkippedAppend(CalibrationRecordLines(s), GainLines());
    SkippedAppend(TotalsLines(s), GeometryLines(s));
    SkippedAppend(CalibrationLines(s), CollectionLines(s));
  }

  // ---------------------------------------------------------------------
  // Rows the reader takes
  // ---------------------------------------------------------------------

  /** A row of two or more fields is its first field, a tab, and the rest. */
  lemma TabRowCons(fs: seq<string>)
    requires |fs| >= 2
    ensures TabRow(fs) == fs[0] + "\t" + TabRow(fs[1..])
  {
  }

  /** The label row and the bias row start with `T` and `B`, so the reader passes over them. */
  lemma LabelRowsSkipped()
    ensures Classify(TabRow(TypeFields())) == OtherRow
    ensures Classify(TabRow(BiasFields())) == OtherRow
  {
    TabRowCons(TypeFields());
    OtherByInitial(TypeFields()[0] + "\t", TabRow(TypeFields()[1..]));
    TabRowCons(BiasFields());
    OtherByInitial(BiasFields()[0] + "\t", TabRow(BiasFields()[1..]));
  }

  /** One calibration factor of 1.0 per detector. */
  function UnitFactors(): (fs: seq<real>)
    ensures |fs| == TvsDetectors + RadDetectors
    ensures forall i :: 0 <= i < |fs| ==> fs[i] == 1.0
  {
    seq(TvsDetectors + RadDetectors, _ => 1.0)
  }

  /** The calibration row starts with the calibration tag. */
  lemma CalibrationRowStarts()
    ensures Head(TabRow(CalibrationFields()), 11) == CalibrationTag
  {
    TabRowCons(CalibrationFields());
    assert TabRow(CalibrationFields())[..11] == CalibrationTag;
  }

  /** No field of the calibration row has an `F`, so the row names no file. */
  lemma CalibrationRowNamesNoFile()
    ensures !Contains(TabRow(CalibrationFields()), "File")
  {
    JoinAvoids(CalibrationFields(), "\t", 'F');
    MissingFirstChar(TabRow(CalibrationFields()), "File");
  }

  lemma CalibrationRowClassified()
    ensures Classify(TabRow(CalibrationFields())) == CalibrationRow
  {
    CalibrationRowStarts();
    CalibrationRowNamesNoFile();
  }

  /** `split()` of the calibration row gives the tag and then 140 tokens `1.0`. */
  lemma CalibrationRowWords()
    ensures Words(TabRow(CalibrationFields())) == [CalibrationTag] + Repeat("1.0", TvsDetectors + RadDetectors)
  {
    CalibrationFieldsNoSpace();
    WordsOfTabRow(CalibrationFields());
    CalibrationFieldsNonEmpty();
  }

  /** No calibration field holds whitespace. */
  lemma CalibrationFieldsNoSpace()
    ensures AllNoSpace(CalibrationFields())
  {
    var fs := CalibrationFields();
    forall i | 0 <= i < |fs|
      ensures NoSpace(fs[i])
    {
      if i >= 5 {
        assert fs[i] == "1.0";
      }
    }
  }

  /** Dropping the empty calibration fields leaves the tag and the factors. */
  lemma CalibrationFieldsNonEmpty()
    ensures NonEmpty(CalibrationFields()) == [CalibrationTag] + Repeat("1.0", TvsDetectors + RadDetectors)
  {
    var ones := Repeat("1.0", TvsDetectors + RadDetectors);
    NonEmptyAppend([CalibrationTag, "", "", "", ""], ones);
    NonEmptyKeepsFull(ones);
  }

  /** Every factor token `1.0` reads as 1.0. */
  lemma UnitFactorsParse()
    ensures ParseAll(Repeat("1.0", TvsDetectors + RadDetectors)) == Some(UnitFactors())
  {
    assert ParseReal("1.0") == Some(1.0);
    ParseAllSucceeds(Repeat("1.0", TvsDetectors + RadDetectors), UnitFactors());
  }

  /** The calibration row is read as 140 factors of 1.0. */
  lemma CalibrationRowReads(st: Readings)
    ensures ReadRow(TabRow(CalibrationFields()), st) == Ok(st.(calibs := Some(UnitFactors())))
  {
    CalibrationRowClassified();
    CalibrationFactorsParse();
  }

  /** The words after the calibration tag read as 140 factors of 1.0. */
  lemma CalibrationFactorsParse()
    ensures var ws := Words(TabRow(CalibrationFields()));
      ParseAll(Slice(ws, 1, |ws|)) == Some(UnitFactors())
  {
    CalibrationRowWords();
    var ones := Repeat("1.0", TvsDetectors + RadDetectors);
    var ws := Words(TabRow(CalibrationFields()));
    assert ws[1..] == ones;
    assert Slice(ws, 1, |ws|) == ones;
    UnitFactorsParse();
  }

  /** The data row starts with the data tag. */
  lemma DataRowClassified(values: seq<real>)
    ensures Classify(TabRow(DataFields(values))) == DataRow
  {
    var fs := DataFields(values);
    var row := TabRow(fs);
    TabRowCons(fs);
    assert row[..|DataTag|] == DataTag;
    DiffersAt(row, CalibrationTag, 0);
    HeadIsStartsWith(row, CalibrationTag);
    HeadIsStartsWith(row, DataTag);
  }

  /** The counts a data row of these values carries. */
  function Counts(values: seq<real>): (cs: seq<real>)
    ensures |cs| == |values|
    ensures forall i :: 0 <= i < |values| ==> cs[i] == Count(values[i]) as real
  {
    seq(|values|, i requires 0 <= i < |values| => Count(values[i]) as real)
  }

  /** The data row is read as the counts written, one per detector. */
  lemma DataRowReads(values: seq<real>, st: Readings)
    requires |values| == TvsDetectors + RadDetectors
    ensures ReadRow(TabRow(DataFields(values)), st) == Ok(st.(counts := Some(Counts(values))))
  {
    DataRowClassified(values);
    DataRowReadsBack(values);
    assert Counts(values) == seq(|values|, i requires 0 <= i < |values| => Count(values[i]) as real);
  }

  /** The dose-per-count line starts with its tag. */
  lemma DosePerCountClassified(s: Settings)
    ensures Classify(DosePerCountLine(s)) == DosePerCountRow
  {
    var row := DosePerCountLine(s);
    DiffersAt(row, CalibrationTag, 0);
    DiffersAt(row, DataTag, 1);
    HeadIsStartsWith(row, CalibrationTag);
    HeadIsStartsWith(row, DataTag);
    assert row[..|DosePerCountTag|] == DosePerCountTag;
    HeadIsStartsWith(row, DosePerCountTag);
  }

  /** `split()` of the dose-per-count line ends with the value, when that has no whitespace. */
  lemma DosePerCountWords(s: Settings)
    requires s.dosePerCount != [] && NoSpace(s.dosePerCount)
    ensures Words(DosePerCountLine(s)) == ["Dose", "Per", "Count:", s.dosePerCount]
  {
    var v := s.dosePerCount;
    var tail := "Count:" + ['\t'] + (v + "\n");
    var mid := "Per" + [' '] + tail;
    assert DosePerCountLine(s) == "Dose" + [' '] + mid;
    WordThenNewline(v);
    WordThenSpace("Count:", '\t', v + "\n");
    WordThenSpace("Per", ' ', tail);
    WordThenSpace("Dose", ' ', mid);
  }

  /**
   * The dose-per-count line is read as the number written, when that value
   * is a single token `float` reads.
   */
  lemma DosePerCountReads(s: Settings, d: real, st: Readings)
    requires NoSpace(s.dosePerCount) && ParseReal(s.dosePerCount) == Some(d)
    ensures ReadRow(DosePerCountLine(s), st) == Ok(st.(dosePerCount := Some(d)))
  {
    DosePerCountClassified(s);
    DosePerCountWords(s);
  }

  // ---------------------------------------------------------------------
  // The whole file
  // ---------------------------------------------------------------------

  /** A single row is read as that row. */
  lemma ReadOneRow(row: string, st: Readings)
    ensures ReadRows([row], st) == ReadRow(row, st)
  {
    match ReadRow(row, st)
    case Err(e) =>
    case Ok(st') => assert [row][1..] == [];
  }

  /** The header sets only the dose per count. */
  lemma HeaderRead(s: Settings, d: real, st: Readings)
    requires NoSpace(s.dosePerCount) && ParseReal(s.dosePerCount) == Some(d)
    ensures ReadRows(SetupLines(s) + [DosePerCountLine(s)] + TrailerLines(s), st) ==
      Ok(st.(dosePerCount := Some(d)))
  {
    var head := SetupLines(s);
    var trailer := TrailerLines(s);
    SetupSkipped(s);
    ReadOtherRows(head, st);
    DosePerCountReads(s, d, st);
    ReadOneRow(DosePerCountLine(s), st);
    TrailerSkipped(s);
    ReadOtherRows(trailer, st.(dosePerCount := Some(d)));
    ReadRowsAppend(head, [DosePerCountLine(s)], st);
    ReadRowsAppend(head + [DosePerCountLine(s)], trailer, st);
  }

  /** The label and bias rows change nothing. */
  lemma LabelRowsRead(st: Readings)
    ensures ReadRows(LabelRows(), st) == Ok(st)
  {
    LabelRowsSkipped();
    TwoOtherRowsRead(TabRow(TypeFields()), TabRow(BiasFields()), st);
  }

  /** Two rows the reader does not recognise leave the readings as they were. */
  lemma TwoOtherRowsRead(a: string, b: string, st: Readings)
    requires Classify(a) == OtherRow && Classify(b) == OtherRow
    ensures ReadRows([a, b], st) == Ok(st)
  {
    assert [a, b][1..] == [b];
    ReadOneRow(b, st);
  }

  /** The calibration row and then the data row. */
  lemma FactorAndCountRowsRead(values: seq<real>, st: Readings)
    requires |values| == TvsDetectors + RadDetectors
    ensures ReadRows(ReadingRows(values), st) ==
      Ok(st.(calibs := Some(UnitFactors())).(counts := Some(Counts(values))))
  {
    var st' := st.(calibs := Some(UnitFactors()));
    var a, b := [TabRow(CalibrationFields())], [TabRow(DataFields(values))];
    assert ReadingRows(values) == a + b;
    assert ReadRows(a, st) == Ok(st') by { CalibrationRowAlone(st); }
    assert ReadRows(b, st') == Ok(st'.(counts := Some(Counts(values)))) by { DataRowAlone(values, st'); }
    ReadRowsAppend(a, b, st);
  }

  /** The calibration row on its own. */
  lemma CalibrationRowAlone(st: Readings)
    ensures ReadRows([TabRow(CalibrationFields())], st) == Ok(st.(calibs := Some(UnitFactors())))
  {
    CalibrationRowReads(st);
    ReadOneRow(TabRow(CalibrationFields()), st);
  }

  /** The data row on its own. */
  lemma DataRowAlone(values: seq<real>, st: Readings)
    requires |values| == TvsDetectors + RadDetectors
    ensures ReadRows([TabRow(DataFields(values))], st) == Ok(st.(counts := Some(Counts(values))))
  {
    DataRowReads(values, st);
    ReadOneRow(TabRow(DataFields(values)), st);
  }

  /** The detector rows set the calibration factors and then the counts. */
  lemma DetectorRowsRead(values: seq<real>, st: Readings)
    requires |values| == TvsDetectors + RadDetectors
    ensures ReadRows(DetectorRows(values), st) ==
      Ok(st.(calibs := Some(UnitFactors())).(counts := Some(Counts(values))))
  {
    LabelRowsRead(st);
    FactorAndCountRowsRead(values, st);
    ReadRowsAppend(LabelRows(), ReadingRows(values), st);
  }

  /**
   * Scanning a written file finds the calibration factors of 1.0, the counts
   * written and the dose per count written.
   */
  lemma ProfilerLinesRead(s: Settings, values: seq<real>, d: real)
    requires |values| == TvsDetectors + RadDetectors
    requires NoSpace(s.dosePerCount) && ParseReal(s.dosePerCount) == Some(d)
    ensures ReadRows(ProfilerLines(s, values), Readings(None, None, None)) ==
      Ok(Readings(Some(UnitFactors()), Some(Counts(values)), Some(d)))
  {
    var st := Readings(None, None, None);
    var header := SetupLines(s) + [DosePerCountLine(s)] + TrailerLines(s);
    assert ProfilerLines(s, values) == header + DetectorRows(values);
    HeaderRead(s, d, st);
    DetectorRowsRead(values, st.(dosePerCount := Some(d)));
    ReadRowsAppend(header, DetectorRows(values), st);
  }

  // ---------------------------------------------------------------------
  // Writing, then reading
  // ---------------------------------------------------------------------

  /** The doses a reader recovers from values written: whole counts times the dose per count. */
  function Recovered(values: seq<real>, d: real): (ds: seq<real>)
    ensures |ds| == |values|
    ensures forall i :: 0 <= i < |values| ==> ds[i] == Count(values[i]) as real * d
  {
    seq(|values|, i requires 0 <= i < |values| => Count(values[i]) as real * d)
  }

  /** Every count times the dose per count. */
  function Scaled(cs: seq<real>, d: real): (ds: seq<real>)
    ensures |ds| == |cs|
    ensures forall i :: 0 <= i < |cs| ==> ds[i] == cs[i] * d
  {
    seq(|cs|, i requires 0 <= i < |cs| => cs[i] * d)
  }

  /** With unit calibration factors the dose is the counts times the dose per count. */
  lemma DoseOfUnitFactors(cs: seq<real>, d: real)
    requires |cs| == TvsDetectors + RadDetectors
    ensures Dose(Readings(Some(UnitFactors()), Some(cs), Some(d))) == Ok(Scaled(cs, d))
  {
    var r := Dose(Readings(Some(UnitFactors()), Some(cs), Some(d)));
    assert r.Ok?;
    assert r.value == Scaled(cs, d);
  }

  /** A full dose row makes a transverse profile of its first 57 doses and a radial one of the other 83. */
  lemma AxisProfiles(dose: seq<real>, meta: map<string, string>)
    requires |dose| == TvsDetectors + RadDetectors
    ensures Tuples(AxisPairs(dose).0, meta) == Ok(Profile(TvsPositions(), dose[..TvsDetectors], meta))
    ensures Tuples(AxisPairs(dose).1, meta) == Ok(Profile(RadPositions(), dose[TvsDetectors..], meta))
  {
    var (tp, rp) := AxisPairs(dose);
    var t := Tuples(tp, meta).value;
    assert t.x == TvsPositions();
    assert t.y == dose[..TvsDetectors];
    var r := Tuples(rp, meta).value;
    assert r.x == RadPositions();
    assert r.y == dose[TvsDetectors..];
  }

  /** Readings of unit factors, 140 counts and a dose per count make both axes' profiles. */
  lemma ImportOfReadings(lines: seq<string>, cs: seq<real>, d: real)
    requires |cs| == TvsDetectors + RadDetectors
    requires ReadRows(lines, Readings(None, None, None)) == Ok(Readings(Some(UnitFactors()), Some(cs), Some(d)))
    ensures ProfileFrom.SncProfiler(lines, "tvs") ==
      Ok(Profile(TvsPositions(), Scaled(cs, d)[..TvsDetectors], MungeMeta(lines)))
    ensures ProfileFrom.SncProfiler(lines, "rad") ==
      Ok(Profile(RadPositions(), Scaled(cs, d)[TvsDetectors..], MungeMeta(lines)))
  {
    DoseOfUnitFactors(cs, d);
    AxisProfiles(Scaled(cs, d), MungeMeta(lines));
  }

  /** The file the exporter writes is the profiler layout of its settings and the sampled values. */
  lemma ExportedLines(tvs: Profile, rad: Profile, ops: ProfileOps, ex: Extractors, meta: map<string, string>)
    requires ProfileTo.SncProfiler(Some(tvs), Some(rad), ops, ex, meta).Ok?
    ensures ResolveSettings(meta, ex).Ok?
    ensures ProfileTo.SncProfiler(Some(tvs), Some(rad), ops, ex, meta).value ==
      ProfilerLines(ResolveSettings(meta, ex).value, ops.interp(tvs, TvsSamplePositions()) + ops.interp(rad, RadSamplePositions()))
  {
  }

  /** Scaling the counts of both axes' samples, then splitting, recovers each axis. */
  lemma ScaledSplits(tv: seq<real>, rv: seq<real>, d: real)
    requires |tv| == TvsDetectors && |rv| == RadDetectors
    ensures Scaled(Counts(tv + rv), d)[..TvsDetectors] == Recovered(tv, d)
    ensures Scaled(Counts(tv + rv), d)[TvsDetectors..] == Recovered(rv, d)
  {
    var sc := Scaled(Counts(tv + rv), d);
    assert forall i :: 0 <= i < TvsDetectors ==> sc[..TvsDetectors][i] == Recovered(tv, d)[i];
    forall i | 0 <= i < RadDetectors
      ensures sc[TvsDetectors..][i] == Recovered(rv, d)[i]
    {
      assert (tv + rv)[TvsDetectors + i] == rv[i];
    }
  }

  /**
   * Exporting two profiles and importing the file gives, for either axis,
   * the detector positions with each value sampled there truncated to whole
   * counts and multiplied by the dose per count the header carries. It holds
   * when the profiles give one sample per detector and the dose per count is
   * a single token `float` reads.
   */
  lemma ExportThenImport(tvs: Profile, rad: Profile, ops: ProfileOps, ex: Extractors, meta: map<string, string>, d: real)
    requires ProfileTo.SncProfiler(Some(tvs), Some(rad), ops, ex, meta).Ok?
    requires |ops.interp(tvs, TvsSamplePositions())| == TvsDetectors
    requires |ops.interp(rad, RadSamplePositions())| == RadDetectors
    requires NoSpace(OrDefault(meta, "Dose Per Count", "0.001"))
    requires ParseReal(OrDefault(meta, "Dose Per Count", "0.001")) == Some(d)
    ensures var lines := ProfileTo.SncProfiler(Some(tvs), Some(rad), ops, ex, meta).value;
      ProfileFrom.SncProfiler(lines, "tvs") ==
        Ok(Profile(TvsPositions(), Recovered(ops.interp(tvs, TvsSamplePositions()), d), MungeMeta(lines)))
    ensures var lines := ProfileTo.SncProfiler(Some(tvs), Some(rad), ops, ex, meta).value;
      ProfileFrom.SncProfiler(lines, "rad") ==
        Ok(Profile(RadPositions(), Recovered(ops.interp(rad, RadSamplePositions()), d), MungeMeta(lines)))
  {
    var tv := ops.interp(tvs, TvsSamplePositions());
    var rv := ops.interp(rad, RadSamplePositions());
    var values := tv + rv;
    ExportedLines(tvs, rad, ops, ex, meta);
    var s := ResolveSettings(meta, ex).value;
    ResolvedFields(meta, ex);
    var lines := ProfilerLines(s, values);
    ProfilerLinesRead(s, values, d);
    ImportOfReadings(lines, Counts(values), d);
    ScaledSplits(tv, rv, d);
  }

  /** Without a dose per count in the metadata the writer puts 0.001, which reads back as 0.001. */
  lemma DefaultDosePerCount(meta: map<string, string>)
    requires "Dose Per Count" !in meta
    ensures NoSpace(OrDefault(meta, "Dose Per Count", "0.001"))
    ensures ParseReal(OrDefault(meta, "Dose Per Count", "0.001")) == Some(0.001)
  {
    var v := "0.001";
    assert v[1..] == ".001";
    assert IndexOf(v[1..], '.') == 0;
    assert IndexOf(v, '.') == 1;
    assert v[..1] == "0" && v[2..] == "001";
    assert "001"[..2] == "00" && "00"[..1] == "0" && "0"[..0] == "";
    assert DigitsValue("001") == 1;
    assert Pow10(3) == 1000;
  }

  /**
   * At the default 0.001 dose per count (1000 counts per unit) the value read
   * back is the value written cut to the next 0.001 toward zero.
   */
  lemma DefaultQuantisation(v: real)
    ensures 0.0 <= v ==> Count(v) as real * 0.001 <= v < Count(v) as real * 0.001 + 0.001
    ensures v < 0.0 ==> Count(v) as real * 0.001 - 0.001 < v <= Count(v) as real * 0.001
  {
  }
}

=== FILE: text.dfy ===
/**
 * The few pieces of Python string behaviour the SNC Profiler reader and
 * writer rely on: `str.split()` on whitespace, `'\t'.join`, slicing a prefix,
 * `in`, `str.replace`, `str.split(sep)`, `str(int)` and `float(token)`.
 */
module PyText {
  import opened Results

  // ---------------------------------------------------------------------
  // Whitespace and `str.split()`
  // ---------------------------------------------------------------------

  /** The characters `str.split()` with no argument treats as separators. */
  predicate IsSpace(c: char) {
    var k := c as int;
    k == 32 || 9 <= k <= 13 || 28 <= k <= 31 || k == 0x85 || k == 0xA0 ||
    k == 0x1680 || 0x2000 <= k <= 0x200A || k == 0x2028 || k == 0x2029 ||
    k == 0x202F || k == 0x205F || k == 0x3000
  }

  predicate NoSpace(s: string) {
    forall i :: 0 <= i < |s| ==> !IsSpace(s[i])
  }

  predicate AllNoSpace(fs: seq<string>) {
    forall i :: 0 <= i < |fs| ==> NoSpace(fs[i])
  }

  /** The pending word, if any, as a list of zero or one words. */
  function Flush(cur: string): seq<string> {
    if cur == [] then [] else [cur]
  }

  /** Splits `s` on runs of whitespace, `cur` being the word read so far. */
  function WordsFrom(s: string, cur: string): (ws: seq<string>)
    requires NoSpace(cur)
    ensures forall i :: 0 <= i < |ws| ==> ws[i] != [] && NoSpace(ws[i])
    decreases |s|
  {
    if |s| == 0 then Flush(cur)
    else if IsSpace(s[0]) then Flush(cur) + WordsFrom(s[1..], [])
    else WordsFrom(s[1..], cur + [s[0]])
  }

  /** `s.split()`: the maximal whitespace-free runs of `s`, in order. */
  function Words(s: string): (ws: seq<string>)
    ensures forall i :: 0 <= i < |ws| ==> ws[i] != [] && NoSpace(ws[i])
    ensures s == [] ==> ws == []
    ensures s != [] && NoSpace(s) ==> ws == [s]
  {
    if NoSpace(s) then
      WordsAbsorb(s, [], []);
      assert s + [] == s && [] + s == s;
      WordsFrom(s, [])
    else WordsFrom(s, [])
  }

  /** A whitespace character at the end of the text only ends the word being read. */
  lemma {:induction false} WordsTrailingSpace(a: string, c: char, cur: string)
    requires IsSpace(c) && NoSpace(cur)
    ensures WordsFrom(a + [c], cur) == WordsFrom(a, cur)
    decreases |a|
  {
    if a == [] {
      assert a + [c] == [c];
      assert WordsFrom([c], cur) == Flush(cur) + WordsFrom([], []);
    } else {
      assert (a + [c])[0] == a[0];
      assert (a + [c])[1..] == a[1..] + [c];
      if IsSpace(a[0]) {
        WordsTrailingSpace(a[1..], c, []);
      } else {
        WordsTrailingSpace(a[1..], c, cur + [a[0]]);
      }
    }
  }

  /**
   * Splitting at any whitespace character splits the words. With `Words([]) == []`
   * and a whitespace-free text being one word, this fixes `split()` on every text.
   */
  lemma WordsAtSpace(a: string, c: char, b: string)
    requires IsSpace(c)
    ensures Words(a + [c] + b) == Words(a) + Words(b)
  {
    WordsSplitAfterSpace(a + [c], b, []);
    WordsTrailingSpace(a, c, []);
  }

  /** A whitespace-free stretch is absorbed into the word being read. */
  lemma {:induction false} WordsAbsorb(w: string, rest: string, cur: string)
    requires NoSpace(w) && NoSpace(cur)
    ensures NoSpace(cur + w)
    ensures WordsFrom(w + rest, cur) == WordsFrom(rest, cur + w)
    decreases |w|
  {
    if w == [] {
      assert w + rest == rest;
      assert cur + w == cur;
    } else {
      assert (w + rest)[0] == w[0];
      assert (w + rest)[1..] == w[1..] + rest;
      WordsAbsorb(w[1..], rest, cur + [w[0]]);
      assert cur + [w[0]] + w[1..] == cur + w;
    }
  }

  /** A word followed by a whitespace character comes off the front of the split. */
  lemma WordThenSpace(w: string, sp: char, rest: string)
    requires w != [] && NoSpace(w) && IsSpace(sp)
    ensures Words(w + [sp] + rest) == [w] + Words(rest)
  {
    assert w + [sp] + rest == w + ([sp] + rest);
    WordsAbsorb(w, [sp] + rest, []);
    assert [] + w == w;
    assert ([sp] + rest)[1..] == rest;
  }

  /** A word being read is never lost: the split of the rest yields at least one word. */
  lemma {:induction false} WordsFromPending(s: string, cur: string)
    requires cur != [] && NoSpace(cur)
    ensures |WordsFrom(s, cur)| >= 1
    decreases |s|
  {
    if |s| > 0 && !IsSpace(s[0]) {
      WordsFromPending(s[1..], cur + [s[0]]);
    }
  }

  /** Text that starts with a non-whitespace character has at least one word. */
  lemma WordsOfNonSpaceStart(s: string)
    requires |s| > 0 && !IsSpace(s[0])
    ensures |Words(s)| >= 1
  {
    assert Words(s) == WordsFrom(s, []);
    assert [] + [s[0]] == [s[0]];
    WordsFromPending(s[1..], [s[0]]);
  }

  /** A whitespace-free word followed by a line break splits to just that word. */
  lemma WordThenNewline(w: string)
    requires w != [] && NoSpace(w)
    ensures Words(w + "\n") == [w]
  {
    WordsAbsorb(w, "\n", []);
    assert [] + w == w;
  }

  /** Text that ends in whitespace splits independently of what follows it. */
  lemma {:induction false} WordsSplitAfterSpace(a: string, b: string, cur: string)
    requires |a| > 0 && IsSpace(a[|a| - 1]) && NoSpace(cur)
    ensures WordsFrom(a + b, cur) == WordsFrom(a, cur) + WordsFrom(b, [])
    decreases |a|
  {
    assert (a + b)[0] == a[0];
    assert (a + b)[1..] == a[1..] + b;
    if IsSpace(a[0]) {
      if |a| == 1 {
        assert a[1..] + b == b;
      } else {
        WordsSplitAfterSpace(a[1..], b, []);
      }
    } else {
      WordsSplitAfterSpace(a[1..], b, cur + [a[0]]);
    }
  }

  // ---------------------------------------------------------------------
  // `sep.join(fields)` and the tab-separated rows of the Profiler format
  // ---------------------------------------------------------------------

  /** `sep.join(fs)`. */
  function Join(fs: seq<string>, sep: string): string {
    if |fs| == 0 then []
    else if |fs| == 1 then fs[0]
    else fs[0] + sep + Join(fs[1..], sep)
  }

  /** The fields that are not empty, in order. */
  function NonEmpty(fs: seq<string>): (r: seq<string>)
    ensures |r| <= |fs|
    ensures forall i :: 0 <= i < |r| ==> r[i] != []
  {
    if |fs| == 0 then []
    else (if fs[0] == [] then [] else [fs[0]]) + NonEmpty(fs[1..])
  }

  /** `n` copies of `s`, as `[s] * n` builds them. */
  function Repeat(s: string, n: nat): (r: seq<string>)
    ensures |r| == n
    ensures forall i :: 0 <= i < n ==> r[i] == s
  {
    seq(n, _ => s)
  }

  /** A tab-separated row as the writer emits it: fields joined by tabs, then a line break. */
  function TabRow(fs: seq<string>): string {
    Join(fs, "\t") + "\n"
  }

  /**
   * Reading a written row back with `split()` yields exactly its non-empty
   * fields: empty fields vanish, every other field comes back whole and in order.
   */
  lemma {:induction false} WordsOfTabRow(fs: seq<string>)
    requires |fs| >= 1 && AllNoSpace(fs)
    ensures Words(TabRow(fs)) == NonEmpty(fs)
    decreases |fs|
  {
    if |fs| == 1 {
      WordsAbsorb(fs[0], "\n", []);
      assert [] + fs[0] == fs[0];
      assert NonEmpty(fs) == (if fs[0] == [] then [] else [fs[0]]) + NonEmpty(fs[1..]);
    } else {
      var tail := Join(fs[1..], "\t") + "\n";
      assert TabRow(fs) == fs[0] + ("\t" + tail);
      WordsAbsorb(fs[0], "\t" + tail, []);
      assert [] + fs[0] == fs[0];
      assert ("\t" + tail)[1..] == tail;
      WordsOfTabRow(fs[1..]);
    }
  }

  lemma {:induction false} NonEmptyAppend(a: seq<string>, b: seq<string>)
    ensures NonEmpty(a + b) == NonEmpty(a) + NonEmpty(b)
    decreases |a|
  {
    if |a| == 0 {
      assert a + b == b;
    } else {
      assert (a + b)[1..] == a[1..] + b;
      NonEmptyAppend(a[1..], b);
    }
  }

  /** Non-empty fields all survive the filter. */
  lemma {:induction false} NonEmptyKeepsFull(fs: seq<string>)
    requires forall i :: 0 <= i < |fs| ==> fs[i] != []
    ensures NonEmpty(fs) == fs
    decreases |fs|
  {
    if |fs| > 0 {
      NonEmptyKeepsFull(fs[1..]);
    }
  }

  /** A character found in neither the separator nor any field is not in the join. */
  lemma {:induction false} JoinAvoids(fs: seq<string>, sep: string, c: char)
    requires c !in sep && forall i :: 0 <= i < |fs| ==> c !in fs[i]
    ensures c !in Join(fs, sep)
    decreases |fs|
  {
    if |fs| > 1 {
      JoinAvoids(fs[1..], sep, c);
    }
  }

  /** Every character of a join is a separator character or a field's character. */
  lemma {:induction false} JoinChars(fs: seq<string>, sep: string, c: char)
    requires c in Join(fs, sep)
    ensures c in sep || exists i :: 0 <= i < |fs| && c in fs[i]
    decreases |fs|
  {
    if |fs| > 1 {
      if c !in fs[0] && c !in sep {
        JoinChars(fs[1..], sep, c);
        var i :| 0 <= i < |fs[1..]| && c in fs[1..][i];
        assert c in fs[i + 1];
      }
    }
  }

  // ---------------------------------------------------------------------
  // Prefixes, substrings, `replace`, `split(sep)`
  // ---------------------------------------------------------------------

  /** Python's `s[:n]`: the first `n` characters, or all of a shorter string. */
  function Head(s: string, n: nat): (r: string)
    ensures |r| == if |s| < n then |s| else n
    ensures r == s[..|r|]
  {
    if |s| <= n then s else s[..n]
  }

  predicate StartsWith(s: string, p: string) {
    |p| <= |s| && s[..|p|] == p
  }

  /** Comparing a prefix slice with a literal as long as the slice is `startswith`. */
  lemma HeadIsStartsWith(s: string, p: string)
    ensures Head(s, |p|) == p <==> StartsWith(s, p)
  {
  }

  /** A string differing from `p` at some position within both does not start with `p`. */
  lemma DiffersAt(s: string, p: string, k: nat)
    requires k < |s| && k < |p| && s[k] != p[k]
    ensures !StartsWith(s, p)
  {
  }

  /** Python's `sub in s`. */
  predicate Contains(s: string, sub: string)
    decreases |s|
  {
    StartsWith(s, sub) || (|s| > 0 && Contains(s[1..], sub))
  }

  /** An occurrence at a known position is an occurrence. */
  lemma {:induction false} ContainsAt(s: string, sub: string, k: nat)
    requires k + |sub| <= |s| && s[k..k + |sub|] == sub
    ensures Contains(s, sub)
    decreases k
  {
    if k > 0 {
      assert s[1..][k - 1..k - 1 + |sub|] == s[k..k + |sub|];
      ContainsAt(s[1..], sub, k - 1);
    }
  }

  /** A non-empty substring's first character occurs in the string. */
  lemma {:induction false} ContainsFirstChar(s: string, sub: string)
    requires |sub| > 0 && Contains(s, sub)
    ensures sub[0] in s
    decreases |s|
  {
    if StartsWith(s, sub) {
      assert s[0] == s[..|sub|][0];
    } else {
      ContainsFirstChar(s[1..], sub);
    }
  }

  /** A string lacking the first character of `sub` does not contain `sub`. */
  lemma {:induction false} MissingFirstChar(s: string, sub: string)
    requires |sub| > 0 && sub[0] !in s
    ensures !Contains(s, sub)
    decreases |s|
  {
    if |sub| <= |s| {
      assert s[..|sub|][0] == s[0];
    }
    if |s| > 0 {
      MissingFirstChar(s[1..], sub);
    }
  }

  /** `s.replace(pat, with)`: every non-overlapping occurrence, leftmost first. */
  function Replace(s: string, pat: string, with: string): (r: string)
    requires |pat| > 0
    ensures !Contains(s, pat) ==> r == s
    decreases |s|
  {
    if |s| == 0 then s
    else if StartsWith(s, pat) then with + Replace(s[|pat|..], pat, with)
    else [s[0]] + Replace(s[1..], pat, with)
  }

  /** No occurrence of `pat` starts before position `k` of `s`. */
  predicate NoMatchBefore(s: string, pat: string, k: nat) {
    forall j :: 0 <= j < k && j <= |s| ==> !StartsWith(s[j..], pat)
  }

  /** Dropping the first character shifts the match-free stretch by one. */
  lemma NoMatchShift(s: string, pat: string, k: nat)
    requires 0 < k <= |s| && NoMatchBefore(s, pat, k)
    ensures !StartsWith(s, pat) && NoMatchBefore(s[1..], pat, k - 1)
  {
    assert s[0..] == s;
    forall j | 0 <= j < k - 1 && j <= |s[1..]|
      ensures !StartsWith(s[1..][j..], pat)
    {
      assert s[1..][j..] == s[j + 1..];
    }
  }

  /**
   * `str.replace` at the first occurrence: the text before it is kept, the
   * occurrence becomes the replacement, and the rest is replaced in turn.
   * With the no-occurrence case this fixes `Replace` on every text.
   */
  lemma ReplaceFirst(s: string, pat: string, with: string, k: nat)
    requires |pat| > 0 && k + |pat| <= |s|
    requires StartsWith(s[k..], pat) && NoMatchBefore(s, pat, k)
    ensures Replace(s, pat, with) == s[..k] + with + Replace(s[k + |pat|..], pat, with)
  {
    var u := s[k..];
    var rest := Replace(s[k + |pat|..], pat, with);
    ReplaceSkipPrefix(s, pat, with, k);
    assert Replace(u, pat, with) == with + rest by {
      ReplaceHead(u, pat, with);
      assert u[|pat|..] == s[k + |pat|..];
    }
    ConcatAssoc(s[..k], with, rest);
  }

  /** Concatenation regroups freely. */
  lemma ConcatAssoc(a: string, b: string, c: string)
    ensures a + (b + c) == a + b + c
  {
  }

  /** Up to the first occurrence `replace` copies the text unchanged. */
  lemma {:induction false} ReplaceSkipPrefix(s: string, pat: string, with: string, k: nat)
    requires |pat| > 0 && k <= |s| && NoMatchBefore(s, pat, k)
    ensures Replace(s, pat, with) == s[..k] + Replace(s[k..], pat, with)
    decreases k
  {
    if k == 0 {
      assert s[..0] + Replace(s, pat, with) == Replace(s, pat, with);
      assert s[0..] == s;
    } else {
      var t := s[1..];
      var rest := Replace(s[k..], pat, with);
      assert !StartsWith(s, pat) && NoMatchBefore(t, pat, k - 1) by {
        NoMatchShift(s, pat, k);
      }
      assert Replace(t, pat, with) == t[..k - 1] + rest by {
        ReplaceSkipPrefix(t, pat, with, k - 1);
        assert t[k - 1..] == s[k..];
      }
      ReplaceHead(s, pat, with);
      assert [s[0]] + t[..k - 1] == s[..k];
      ConcatAssoc([s[0]], t[..k - 1], rest);
    }
  }

  /** Deleting a single character with `replace(c, '')` keeps every other character, in order. */
  lemma {:induction false} ReplaceDeletesChar(s: string, c: char)
    ensures Replace(s, [c], []) == Without(s, c)
    decreases |s|
  {
    if |s| > 0 {
      ReplaceDeletesChar(s[1..], c);
      if s[0] == c {
        assert StartsWith(s, [c]);
      } else {
        assert !StartsWith(s, [c]);
      }
    }
  }

  /** `s` with every `c` removed. */
  function Without(s: string, c: char): (r: string)
    ensures c !in r
    ensures forall d :: d != c ==> (d in r <==> d in s)
  {
    if |s| == 0 then []
    else (if s[0] == c then [] else [s[0]]) + Without(s[1..], c)
  }

  /** A character in neither the text nor the replacement is not in the result. */
  lemma {:induction false} ReplaceAvoids(s: string, pat: string, with: string, c: char)
    requires |pat| > 0 && c !in s && c !in with
    ensures c !in Replace(s, pat, with)
    decreases |s|
  {
    if |s| > 0 {
      if StartsWith(s, pat) {
        ReplaceAvoids(s[|pat|..], pat, with, c);
      } else {
        ReplaceAvoids(s[1..], pat, with, c);
      }
    }
  }

  /** How the replaced text begins: with the replacement at an occurrence, otherwise with the first character. */
  lemma ReplaceHead(s: string, pat: string, with: string)
    requires |pat| > 0
    ensures |s| == 0 ==> Replace(s, pat, with) == []
    ensures |s| > 0 && StartsWith(s, pat) ==> Replace(s, pat, with) == with + Replace(s[|pat|..], pat, with)
    ensures |s| > 0 && !StartsWith(s, pat) ==> Replace(s, pat, with) == [s[0]] + Replace(s[1..], pat, with)
  {
  }

  /**
   * A prefix of the replaced text that avoids the replacement's first
   * character was already a prefix of the original text.
   */
  lemma {:induction false} ReplacePrefix(s: string, pat: string, with: string, u: string)
    requires |pat| > 0 && |with| > 0 && with[0] !in u
    requires StartsWith(Replace(s, pat, with), u)
    ensures StartsWith(s, u)
    decreases |s|
  {
    ReplaceHead(s, pat, with);
    if |u| > 0 {
      var r := Replace(s, pat, with);
      assert r[0] == u[0];
      if |s| > 0 && !StartsWith(s, pat) {
        var rest := Replace(s[1..], pat, with);
        assert u == [s[0]] + u[1..];
        assert StartsWith(rest, u[1..]);
        ReplacePrefix(s[1..], pat, with, u[1..]);
        assert s[..|u|] == [s[0]] + s[1..][..|u| - 1];
      }
    }
  }

  /** Every occurrence of `tag` in `s` directly follows a line break. */
  predicate StartsLines(s: string, tag: string) {
    forall k :: 0 <= k < |s| && StartsWith(s[k..], tag) ==> 0 < k && s[k - 1] == '\n'
  }

  /** No proper suffix of `p` is also a prefix of it, so occurrences of `p` never overlap. */
  predicate BorderFree(p: string) {
    forall j :: 0 < j < |p| ==> !StartsWith(p, p[j..])
  }

  /** A string whose last character occurs nowhere before it is border-free. */
  lemma LastCharOnlyAtEnd(p: string)
    requires |p| > 0 && p[|p| - 1] !in p[..|p| - 1]
    ensures BorderFree(p)
  {
    forall j | 0 < j < |p|
      ensures !StartsWith(p, p[j..])
    {
      var u := p[j..];
      assert u[|u| - 1] == p[|p| - 1];
      assert p[..|p| - 1][|u| - 1] == p[|u| - 1];
      assert p[..|u|][|u| - 1] == p[|u| - 1];
    }
  }

  /** After `s.replace(tag, '\n' + tag)` every occurrence of `tag` follows a line break. */
  lemma {:induction false} BreakStartsLines(s: string, tag: string)
    requires |tag| > 0 && '\n' !in tag && BorderFree(tag)
    ensures StartsLines(Replace(s, tag, "\n" + tag), tag)
    decreases |s|
  {
    var w := "\n" + tag;
    var r := Replace(s, tag, w);
    if |s| > 0 {
      if StartsWith(s, tag) {
        var rest := Replace(s[|tag|..], tag, w);
        BreakStartsLines(s[|tag|..], tag);
        assert r == w + rest;
        LinesAfterBreak(tag, rest);
      } else {
        var rest := Replace(s[1..], tag, w);
        BreakStartsLines(s[1..], tag);
        assert r == [s[0]] + rest;
        if StartsWith(r, tag) {
          ReplacePrefix(s, tag, w, tag);
        }
        LinesAfterChar(s[0], rest, tag);
      }
    }
  }

  /** A line break and a border-free `tag` in front keep every `tag` at a line start. */
  lemma LinesAfterBreak(tag: string, rest: string)
    requires |tag| > 0 && '\n' !in tag && BorderFree(tag) && StartsLines(rest, tag)
    ensures StartsLines("\n" + tag + rest, tag)
  {
    var w := "\n" + tag;
    var r := w + rest;
    assert rest[0..] == rest;
    forall k | 0 <= k < |r| && StartsWith(r[k..], tag)
      ensures 0 < k && r[k - 1] == '\n'
    {
      assert r[k] == r[k..][0] == tag[0];
      if k <= |tag| {
        assert r[k..] == tag[k - 1..] + rest;
      } else {
        assert r[k..] == rest[k - |w|..];
      }
    }
  }

  /** One character that does not begin a `tag` keeps every `tag` at a line start. */
  lemma LinesAfterChar(c: char, rest: string, tag: string)
    requires StartsLines(rest, tag) && !StartsWith([c] + rest, tag)
    ensures StartsLines([c] + rest, tag)
  {
    var r := [c] + rest;
    forall k | 0 < k < |r| && StartsWith(r[k..], tag)
      ensures r[k - 1] == '\n'
    {
      assert r[k..] == rest[k - 1..];
    }
  }

  /** A text whose head lacks the first character of `p` holds `p` only in its tail. */
  lemma {:induction false} SkipHead(x: string, y: string, p: string)
    requires |p| > 0 && p[0] !in x && Contains(x + y, p)
    ensures Contains(y, p)
    decreases |x|
  {
    if |x| > 0 {
      assert (x + y)[0] == x[0];
      assert (x + y)[1..] == x[1..] + y;
      SkipHead(x[1..], y, p);
    } else {
      assert x + y == y;
    }
  }

  /** After `s.replace(' ' + tag, '\n' + tag)` no space-prefixed `tag` is left. */
  lemma {:induction false} SpaceBreakLeavesNone(s: string, tag: string)
    requires |tag| > 0 && ' ' !in tag && '\n' !in tag
    ensures !Contains(Replace(s, " " + tag, "\n" + tag), " " + tag)
    decreases |s|
  {
    var p := " " + tag;
    var w := "\n" + tag;
    var r := Replace(s, p, w);
    if |s| > 0 {
      if StartsWith(s, p) {
        var rest := Replace(s[|p|..], p, w);
        SpaceBreakLeavesNone(s[|p|..], tag);
        assert r == w + rest;
        if Contains(r, p) {
          SkipHead(w, rest, p);
        }
      } else {
        var rest := Replace(s[1..], p, w);
        SpaceBreakLeavesNone(s[1..], tag);
        assert r == [s[0]] + rest;
        assert r[1..] == rest;
        if StartsWith(r, p) {
          ReplacePrefix(s, p, w, p);
        }
      }
    }
  }

  /** `t.replace(tag, '\n' + tag)`: every `tag` moved to the start of a line. */
  function BreakBefore(t: string, tag: string): (r: string)
    requires |tag| > 0 && '\n' !in tag && BorderFree(tag)
    ensures StartsLines(r, tag)
  {
    BreakStartsLines(t, tag);
    Replace(t, tag, "\n" + tag)
  }

  /** `t.replace(' ' + tag, '\n' + tag)`: the space before every `tag` becomes a line break. */
  function BreakAtSpace(t: string, tag: string): (r: string)
    requires |tag| > 0 && ' ' !in tag && '\n' !in tag
    ensures !Contains(r, " " + tag)
  {
    SpaceBreakLeavesNone(t, tag);
    Replace(t, " " + tag, "\n" + tag)
  }

  /** `s.split(pat)[0]`: everything before the first occurrence of `pat`. */
  function UpTo(s: string, pat: string): (r: string)
    requires |pat| > 0
    ensures |r| <= |s| && r == s[..|r|]
    ensures !Contains(r, pat)
    ensures |r| < |s| ==> StartsWith(s[|r|..], pat)
    decreases |s|
  {
    if StartsWith(s, pat) then []
    else if |s| == 0 then []
    else
      var rest := UpTo(s[1..], pat);
      assert s[1..][|rest|..] == s[1 + |rest|..];
      assert [s[0]] + rest == s[..1 + |rest|];
      NoOccurrenceCons(s[0], rest, pat, s);
      [s[0]] + rest
  }

  lemma NoOccurrenceCons(c: char, rest: string, pat: string, s: string)
    requires |s| > 0 && s[0] == c && !StartsWith(s, pat)
    requires |rest| < |s| && [c] + rest == s[..1 + |rest|]
    requires !Contains(rest, pat)
    ensures !Contains([c] + rest, pat)
  {
    var r := [c] + rest;
    assert r[1..] == rest;
    if |pat| <= |r| {
      assert s[..|pat|] == r[..|pat|];
    }
  }

  /** `s.split(c)` for a one-character separator: the pieces between separators, empty ones included. */
  function SplitOn(s: string, c: char): (r: seq<string>)
    ensures |r| >= 1
    ensures forall i :: 0 <= i < |r| ==> c !in r[i]
    ensures Join(r, [c]) == s
    decreases |s|
  {
    if |s| == 0 then [[]]
    else
      var rest := SplitOn(s[1..], c);
      if s[0] == c then
        assert [c] + Join(rest, [c]) == s;
        [[]] + rest
      else
        var r := [[s[0]] + rest[0]] + rest[1..];
        assert r[1..] == rest[1..];
        assert Join(r, [c]) == [s[0]] + Join(rest, [c]) by {
          if |rest| > 1 {
            assert Join(rest, [c]) == rest[0] + [c] + Join(rest[1..], [c]);
          }
        }
        r
  }

  /** `s.split(c, 1)` on a string known to contain `c`: the text before and after its first occurrence. */
  function SplitAtFirst(s: string, c: char): (r: (string, string))
    requires c in s
    ensures s == r.0 + [c] + r.1
    ensures c !in r.0
    decreases |s|
  {
    if s[0] == c then ([], s[1..])
    else
      var (before, after) := SplitAtFirst(s[1..], c);
      ([s[0]] + before, after)
  }

  // ---------------------------------------------------------------------
  // `str(n)` for integers and `float(token)`
  // ---------------------------------------------------------------------

  predicate IsDigit(c: char) {
    '0' <= c <= '9'
  }

  predicate AllDigits(s: string) {
    forall i :: 0 <= i < |s| ==> IsDigit(s[i])
  }

  function DigitChar(d: nat): (c: char)
    requires d < 10
    ensures IsDigit(c)
  {
    ('0' as int + d) as char
  }

  /** Decimal digits of a natural number, most significant first, no leading zeros. */
  function NatDigits(n: nat): (s: string)
    ensures |s| > 0 && AllDigits(s)
    ensures |s| > 1 ==> s[0] != '0'
  {
    if n < 10 then [DigitChar(n)]
    else NatDigits(n / 10) + [DigitChar(n % 10)]
  }

  /** `str(n)`. */
  function IntToString(n: int): (s: string)
    ensures |s| > 0 && NoSpace(s)
    ensures '.' !in s
    ensures n >= 0 ==> AllDigits(s) && (|s| > 1 ==> s[0] != '0')
    ensures n < 0 ==> s[0] == '-' && |s| > 1 && AllDigits(s[1..]) && (|s| > 2 ==> s[1] != '0')
  {
    if n < 0 then "-" + NatDigits(-n) else NatDigits(n)
  }

  /** The number a string of decimal digits denotes. */
  function DigitsValue(s: string): nat
    requires AllDigits(s)
  {
    if |s| == 0 then 0
    else DigitsValue(s[..|s| - 1]) * 10 + (s[|s| - 1] as int - '0' as int)
  }

  lemma {:induction false} NatDigitsValue(n: nat)
    ensures DigitsValue(NatDigits(n)) == n
  {
    if n >= 10 {
      var s := NatDigits(n);
      assert s[..|s| - 1] == NatDigits(n / 10);
      NatDigitsValue(n / 10);
    }
  }

  function Pow10(k: nat): (p: nat)
    ensures p >= 1
  {
    if k == 0 then 1 else 10 * Pow10(k - 1)
  }

  /** Position of the first `c` in `s`, or `|s|` when there is none. */
  function IndexOf(s: string, c: char): (k: nat)
    ensures k <= |s|
    ensures c !in s[..k]
    ensures k < |s| ==> s[k] == c
    ensures c !in s ==> k == |s|
  {
    if |s| == 0 then 0
    else if s[0] == c then 0
    else
      assert s[..1 + IndexOf(s[1..], c)] == [s[0]] + s[1..][..IndexOf(s[1..], c)];
      1 + IndexOf(s[1..], c)
  }

  /** `float(s)` for an unsigned decimal `digits[.digits]` or `.digits`; `None` is a ValueError. */
  function ParseUnsigned(s: string): Option<real> {
    var k := IndexOf(s, '.');
    var whole := s[..k];
    var frac := if k < |s| then s[k + 1..] else [];
    if AllDigits(whole) && AllDigits(frac) && |whole| + |frac| > 0 then
      Some(DigitsValue(whole) as real + DigitsValue(frac) as real / Pow10(|frac|) as real)
    else None
  }

  /** An unsigned number is digits with at most a point: no whitespace and no sign. */
  lemma UnsignedShape(s: string)
    ensures ParseUnsigned(s).Some? ==> NoSpace(s) && |s| > 0 && s[0] != '+' && s[0] != '-'
  {
    if ParseUnsigned(s).Some? {
      var k := IndexOf(s, '.');
      forall i | 0 <= i < |s|
        ensures IsDigit(s[i]) || s[i] == '.'
      {
        if i < k {
          assert s[i] == s[..k][i];
        } else if i > k {
          assert s[i] == s[k + 1..][i - k - 1];
        }
      }
    }
  }

  /** `float(s)` for an optionally signed decimal token; `None` is a ValueError. */
  function ParseReal(s: string): (r: Option<real>)
    ensures r.Some? ==> |s| > 0
    ensures r.Some? ==> NoSpace(s)
    ensures |s| > 1 && (s[0] == '+' || s[0] == '-') && (s[1] == '+' || s[1] == '-') ==> r.None?
    ensures AllDigits(s) && |s| > 0 ==> r == Some(DigitsValue(s) as real)
  {
    DigitsOnlyParse(s);
    UnsignedShape(s);
    UnsignedShape(if |s| > 0 then s[1..] else s);
    if |s| > 0 && (s[0] == '-' || s[0] == '+') then
      match ParseUnsigned(s[1..])
      case None => None
      case Some(v) => Some(if s[0] == '-' then -v else v)
    else ParseUnsigned(s)
  }

  /** The value of `whole.frac`: the whole digits plus the fraction digits over 10^|frac|. */
  function PointValue(whole: string, frac: string): real
    requires AllDigits(whole) && AllDigits(frac)
  {
    DigitsValue(whole) as real + DigitsValue(frac) as real / Pow10(|frac|) as real
  }

  /** `float` of digits, a point and digits reads the whole part plus the scaled fraction. */
  lemma UnsignedPointed(whole: string, frac: string)
    requires AllDigits(whole) && AllDigits(frac) && |whole| + |frac| > 0
    ensures ParseUnsigned(whole + "." + frac) == Some(PointValue(whole, frac))
  {
    var s := whole + "." + frac;
    var k := IndexOf(s, '.');
    forall i | 0 <= i < |whole|
      ensures s[i] != '.'
    {
      assert s[i] == whole[i];
    }
    assert s[..|whole| + 1][|whole|] == '.';
    assert k == |whole|;
    assert s[..k] == whole;
    assert s[k + 1..] == frac;
  }

  /** A sign in front of an unsigned number negates it for `-` and keeps it for `+` or none. */
  lemma SignedParse(t: string, sign: string, u: string, v: real)
    requires sign == "" || sign == "+" || sign == "-"
    requires t == sign + u && ParseUnsigned(u) == Some(v)
    ensures ParseReal(t).Some?
    ensures sign == "-" ==> ParseReal(t).value == -v
    ensures sign != "-" ==> ParseReal(t).value == v
  {
    UnsignedShape(u);
    if sign == "" {
      assert sign != "-" by { assert |sign| != |"-"|; }
      assert t == u;
    } else {
      assert t[0] == sign[0] && t[1..] == u;
      if sign == "+" {
        assert sign != "-" by { assert sign[0] != "-"[0]; }
      }
      SignReads(t);
    }
  }

  /** After a leading sign the rest is read unsigned, and a `-` negates it. */
  lemma SignReads(t: string)
    requires |t| > 0 && (t[0] == '-' || t[0] == '+')
    ensures ParseUnsigned(t[1..]).Some? && t[0] == '-' ==> ParseReal(t) == Some(-ParseUnsigned(t[1..]).value)
    ensures ParseUnsigned(t[1..]).Some? && t[0] == '+' ==> ParseReal(t) == ParseUnsigned(t[1..])
  {
  }

  /**
   * `float` on an optionally signed `whole.frac` token: the whole part plus
   * the fraction, negated after a minus sign.
   */
  lemma ParsePointed(t: string, sign: string, whole: string, frac: string)
    requires sign == "" || sign == "+" || sign == "-"
    requires AllDigits(whole) && AllDigits(frac) && |whole| + |frac| > 0
    requires t == sign + (whole + "." + frac)
    ensures ParseReal(t).Some?
    ensures sign == "-" ==> ParseReal(t).value == -PointValue(whole, frac)
    ensures sign != "-" ==> ParseReal(t).value == PointValue(whole, frac)
  {
    UnsignedPointed(whole, frac);
    SignedParse(t, sign, whole + "." + frac, PointValue(whole, frac));
  }

  /** `float` on an optionally signed run of digits: the number it denotes, negated after a minus. */
  lemma ParseWhole(t: string, sign: string, whole: string)
    requires sign == "" || sign == "+" || sign == "-"
    requires |whole| > 0 && AllDigits(whole) && t == sign + whole
    ensures ParseReal(t).Some?
    ensures sign == "-" ==> ParseReal(t).value == -(DigitsValue(whole) as real)
    ensures sign != "-" ==> ParseReal(t).value == DigitsValue(whole) as real
  {
    DigitsOnlyParse(whole);
    SignedParse(t, sign, whole, DigitsValue(whole) as real);
  }

  /** A run of digits holds no point, so it reads as the number it denotes. */
  lemma DigitsOnlyParse(d: string)
    ensures |d| > 0 && AllDigits(d) ==> ParseUnsigned(d) == Some(DigitsValue(d) as real)
  {
    if |d| > 0 && AllDigits(d) {
      forall k | 0 <= k < |d|
        ensures d[k] != '.'
      {
        assert IsDigit(d[k]);
      }
      DigitsParse(d);
    }
  }

  /** A run of digits without a point reads as the number it denotes. */
  lemma DigitsParse(d: string)
    requires |d| > 0 && AllDigits(d) && '.' !in d
    ensures ParseUnsigned(d) == Some(DigitsValue(d) as real)
  {
    var k := IndexOf(d, '.');
    assert k == |d|;
    assert d[..k] == d;
    assert DigitsValue([]) == 0 && Pow10(0) == 1;
  }

  /** `float(str(n)) == n`: an integer written with `str` reads back unchanged. */
  lemma IntToStringParses(n: int)
    ensures ParseReal(IntToString(n)) == Some(n as real)
  {
    var m: nat := if n < 0 then -n else n;
    var d := NatDigits(m);
    NatDigitsValue(m);
    DigitsParse(d);
    if n < 0 {
      assert IntToString(n)[1..] == d;
    } else {
      assert IntToString(n) == d;
      assert d[0] != '-' && d[0] != '+';
    }
  }

  /** Parsing every token; the first one that is not a number is the ValueError. */
  function ParseAll(ts: seq<string>): (r: Option<seq<real>>)
    ensures r.Some? ==> |r.value| == |ts|
    ensures r.Some? ==> forall i :: 0 <= i < |ts| ==> ParseReal(ts[i]) == Some(r.value[i])
  {
    if |ts| == 0 then Some([])
    else match ParseReal(ts[0])
      case None => None
      case Some(v) =>
        match ParseAll(ts[1..])
        case None => None
        case Some(vs) => Some([v] + vs)
  }

  /** Tokens that each parse are parsed as a whole. */
  lemma {:induction false} ParseAllSucceeds(ts: seq<string>, vs: seq<real>)
    requires |ts| == |vs|
    requires forall i :: 0 <= i < |ts| ==> ParseReal(ts[i]) == Some(vs[i])
    ensures ParseAll(ts) == Some(vs)
    decreases |ts|
  {
    if |ts| > 0 {
      ParseAllSucceeds(ts[1..], vs[1..]);
      assert [vs[0]] + vs[1..] == vs;
    }
  }
}
